=== FILE: README.md ===
# Car-repair workshop UI: a Dafny model of its decision logic

The repository is a React front end for a car service centre. Its public pages are:
- a five-step booking wizard;
- a contact form;
- an FAQ page with search.

The admin console has three panels:
- services;
- gallery;
- bookings.

A login page and a guard protect the console with a flag in local storage.

All real work is done by a REST backend. What is left in the front end is the decision and transition logic inside the event handlers. This project states that logic as pure Dafny functions over immutable records and proves properties about it.

Every `fetch` is an input of type `Fetch.Outcome`. It is one of:
- a 2xx answer with the body the handler reads;
- a non-2xx answer with status, status text and body;
- a rejected promise, or an exception thrown inside the handler's `try`.

Each handler returns the new state together with its effects as data:
- the requests issued;
- the alert shown;
- the object-URL revocations;
- the writes to local storage.

A handler that awaits a refetch takes that refetch's outcome as a second input. `confirm` is a boolean input.

Modules and the source they follow:

| module | file | source |
|---|---|---|
| `Text` | text.dfy | ECMAScript string operations: `\s`, `trim`, `includes`, `toLowerCase` on ASCII, `join`, number-to-string |
| `Fetch` | fetch.dfy | outcomes, requests, `x \|\| fallback`, the admin `Authorization` header and error texts |
| `Validation` | validation.dfy | the `required` / `pattern` rules of react-hook-form, and the phone and email rules |
| `Services` | services.dfy | services panel of `src/pages/Admin.tsx`, including the 12 built-in preview services |
| `Gallery` | gallery.dfy | gallery panel of `src/pages/Admin.tsx`, and `GalleryImage` of `src/types/gallery.ts` |
| `Bookings` | bookings.dfy | bookings panel of `src/pages/Admin.tsx` |
| `Wizard` | wizard.dfy | `src/pages/Booking.tsx` |
| `Contact` | contact.dfy | `src/pages/Contact.tsx` |
| `Faqs` | faqs.dfy | `src/pages/FAQs.tsx` |
| `Auth` | auth.dfy | `src/pages/Login.tsx`, `src/components/ProtectedAdmin.tsx`, and logout in `src/pages/Admin.tsx` |

Three behaviours of the code are worth knowing. The model states each of them as the code has it.
- **Booking status changes are not one-way.** Accept is disabled only when a booking is already accepted, and cancel only when it is already cancelled (src/pages/Admin.tsx:1135 and 1146). So a cancelled booking can be accepted and an accepted one cancelled. See `Bookings.TerminalStatusesStayActionable`.
- **Two write requests carry no `Authorization` header.**
  - The accept/cancel `PATCH` sends none (src/pages/Admin.tsx:636-638), while the service, gallery and booking-delete writes attach one.
  - The wizard posts to the literal `http://localhost:5000/api/bookings` (src/pages/Booking.tsx:82), also without one.
- **A superseded preview URL is revoked twice.** The state updater revokes it when a new file is picked, a reset happens or an edit starts (src/pages/Admin.tsx:495-497, 509-511 and 578-580). The effect cleanup on `previewUrl` then revokes it again (src/pages/Admin.tsx:166-172). See `Gallery.SupersededPreviewRevokedTwice`.

## Model

| member | source | states |
|---|---|---|
| Fetch.OrElse | src/pages/Admin.tsx:392 | `s \|\| fallback`: the string when present and non-empty, otherwise the fallback |
| Fetch.AuthHeader | src/pages/Admin.tsx:379-382 | an `Authorization` header is attached exactly when the prepared header is non-empty, and then carries it unchanged |
| Fetch.ErrorAlert | src/pages/Admin.tsx:390-393 | a failed admin write alerts the JSON `error` member, or the fixed fallback when it is missing or empty; a body that is not JSON alerts the parse error |
| Fetch.StatusMessage | src/pages/Admin.tsx:346-349 | a failed list load reports the fixed prefix, then the decimal status, then a space, the status text, ` - ` and the response text, each at its own position |
| Fetch.StatusMessageStatus | src/pages/Admin.tsx:349 | two equal messages with the same prefix report the same status, so the status can be read back from the message |
| Text.Lower | src/pages/FAQs.tsx:124-125 | lower-casing keeps the length and maps every character independently, ASCII capitals to small letters |
| Text.Contains | src/pages/FAQs.tsx:124-125 | `includes` holds exactly when the needle occurs at some position, so the empty needle is always found |
| Text.TrimNonEmptyIff | src/pages/Admin.tsx:537 | `tags.trim().length > 0` exactly when the tags contain a non-whitespace character |
| Text.Join | src/pages/Admin.tsx:584 | joining no tags gives the empty string and one tag gives that tag |
| Text.JoinAppend | src/pages/Admin.tsx:584 | joining two non-empty lists one after the other is the two joins with one separator between them, which with the one-tag case fixes `join` for any number of tags |
| Text.ParseNatToString | src/pages/Admin.tsx:349 | the decimal rendering of a status code reads back as the same number |
| Text.NatToStringInjective | src/pages/Admin.tsx:349 | distinct status codes render differently |
| Text.IntToString | src/pages/Admin.tsx:534 | `String(order)` is non-empty and starts with a digit exactly for a non-negative order; a negative one renders as a minus and the digits of its magnitude |
| Text.ParseIntToString | src/pages/Admin.tsx:534 | the rendered order has the shape of an optional minus followed by digits and reads back as the same integer |
| Text.IntToStringInjective | src/pages/Admin.tsx:534 | distinct orders render differently |
| Validation.MatchesEmail | src/pages/Booking.tsx:350-355 | the test accepts exactly the strings `^\S+@\S+$` matches: some `@` with a non-empty, whitespace-free part on each side |
| Validation.Check | src/pages/Booking.tsx:331-336 | a field has no error exactly when it is filled in (if required) and, when it holds a non-empty text, that text matches the pattern; the required message wins over the pattern message |
| Validation.PhoneRuleIff | src/pages/Contact.tsx:239-245 | a phone number passes exactly when it is ten ASCII digits; empty gives the required message and anything else the pattern message |
| Validation.PhoneExamples | src/pages/Booking.tsx:331-336 | `9876543210` passes; `98765`, eleven digits and a number with a space fail; an absent value is reported as required |
| Validation.EmailExamples | src/pages/Contact.tsx:259-264 | `a@b` and `a@@b` match; `@b`, `a@`, `a b@c` and `ab` do not |
| Services.ReplaceAt | src/pages/Admin.tsx:467-472 | the list keeps its length, the given index holds the new value and every other entry is unchanged |
| Services.RemoveAt | src/pages/Admin.tsx:474-479 | removal drops exactly the entry at the index and keeps the rest in order; an index out of range changes nothing |
| Services.AddFeature | src/pages/Admin.tsx:460-465 | exactly one empty feature is appended, the existing ones are kept and nothing else in the form changes |
| Services.UpdateFeature | src/pages/Admin.tsx:467-472 | only the entry at the index changes, the length is kept and nothing else in the form changes |
| Services.RemoveFeature | src/pages/Admin.tsx:474-479 | removal deletes exactly the entry at an index in range, so the length drops by one; nothing else in the form changes |
| Services.RemoveUndoesAdd | src/pages/Admin.tsx:460-479 | removing the feature just added restores the form |
| Services.UpdateWithSameValue | src/pages/Admin.tsx:467-472 | writing an entry's own value back changes nothing |
| Services.FeatureEditsKeepOne | src/pages/Admin.tsx:916 | removal is offered only with more than one feature, so add, update and the offered removal never leave the list empty |
| Services.ResetServiceForm | src/pages/Admin.tsx:446-458 | the draft becomes icon `Settings`, empty texts, features `['']` and rating 4.5 with no id; editing is cleared and the form closed; the list and preview flag are kept |
| Services.ResetRestoresInitialDraft | src/pages/Admin.tsx:108-116 | the reset draft equals the initial draft, and resetting twice is the same as once |
| Services.OpenServiceForm | src/pages/Admin.tsx:762 | the add button only opens the form |
| Services.EditService | src/pages/Admin.tsx:405-409 | editing loads the service into the form, records it as edited and opens the form, leaving the list alone |
| Services.LoadServices | src/pages/Admin.tsx:297-317 | a 2xx load stores the body and clears the preview flag; any failure stores the 12 built-in services and sets the flag; loading ends either way |
| Services.FallbackServices | src/pages/Admin.tsx:174-295 | the built-in list has exactly twelve entries, each with an id, four features and a rating between 0 and 5 |
| Services.FallbackEntry | src/pages/Admin.tsx:174-295 | each built-in service has an id, four features and a rating in 0..5 |
| Services.SaveRequest | src/pages/Admin.tsx:372-388 | PUT to `/api/services/<id>` exactly when editing, otherwise POST to `/api/services`; the body is the draft and the auth header is attached when available |
| Services.Save | src/pages/Admin.tsx:370-402 | success issues the refetch and leaves the panel as the refetch load followed by a form reset; a failure leaves the panel untouched and alerts the server's error, `Error saving service` or the exception text |
| Services.SubmitService | src/pages/Admin.tsx:361-367 | with an empty required input (title, price, duration, description or any feature, src/pages/Admin.tsx:820-914) nothing happens; in preview mode the save returns with the preview notice and no request; otherwise the save runs |
| Services.BlankDraftSendsNothing | src/pages/Admin.tsx:108-116 | the blank draft the form opens with cannot be submitted: it issues no request and raises no alert |
| Services.SaveThenRefetch | src/pages/Admin.tsx:297-317 | after a successful save the form is reset; a failed refetch then enters preview mode with the built-in list, a successful one shows the backend's list |
| Services.DeleteService | src/pages/Admin.tsx:411-444 | a request goes out exactly when the id is non-empty, preview mode is off and the user confirmed; a declined confirm outside preview mode raises no alert; success issues the DELETE then the list GET, with no alert; failure leaves the panel untouched and alerts the server error, `Error deleting service` or the exception text |
| Services.FailedLoadBlocksMutations | src/pages/Admin.tsx:297-317 | after a failed load, neither save nor delete issues any request and the built-in list stays |
| Services.SuccessfulLoadEnablesSave | src/pages/Admin.tsx:364-375 | after a successful load, submitting a form whose required inputs are filled issues its PUT or POST |
| Gallery.RevokeHeld | src/pages/Admin.tsx:495-497 | exactly the held preview URL, if any, is added to the revocations |
| Gallery.FileChange | src/pages/Admin.tsx:491-505 | the chosen file is stored, a fresh preview URL exists exactly when a file was chosen, the old one is revoked and the rest of the form is kept |
| Gallery.ResetGalleryForm | src/pages/Admin.tsx:507-516 | the form returns to its initial state without file or preview, the held preview is revoked, editing is cleared and the form closed |
| Gallery.AddImageClick | src/pages/Admin.tsx:626-630 | adding starts from the initial form with nothing edited and the form open, revoking the held preview |
| Gallery.FormOf | src/pages/Admin.tsx:580-588 | editing loads title, flag and order, an absent description as empty, the tags joined with `, `, and no file or preview |
| Gallery.EditImage | src/pages/Admin.tsx:574-591 | editing records the image, opens the form with its fields and revokes the held preview |
| Gallery.ChangeInput | src/pages/Admin.tsx:481-489 | each of the title, description, tags, featured and order inputs changes exactly its own form field, never the file or preview |
| Gallery.Commit | src/pages/Admin.tsx:166-172 | when the preview URL changes the previous one is revoked once more by the effect cleanup; otherwise nothing is revoked |
| Gallery.StepKeepsValid | src/pages/Admin.tsx:166-172 | every form event keeps the URL bookkeeping sound: a preview is held exactly when a file is, the held URL was created and never revoked, and only created URLs are revoked; a superseded preview is revoked |
| Gallery.SupersededPreviewRevokedTwice | src/pages/Admin.tsx:491-505 | picking a new file while a preview is held revokes the old URL twice, in the updater and in the cleanup |
| Gallery.StepPreviewIff | src/pages/Admin.tsx:491-516 | after a file change a preview exists exactly when a file was chosen; after reset, edit or add there is neither file nor preview |
| Gallery.LoadGallery | src/pages/Admin.tsx:319-338 | a 2xx load stores `data` or the empty list and clears the error; a failure keeps the images and records the status message or exception text |
| Gallery.GalleryParts | src/pages/Admin.tsx:531-543 | the payload begins with the four metadata parts |
| Gallery.Lookup | src/pages/Admin.tsx:531-543 | a part is found by name exactly when one carries that name, and the value found is that of such a part |
| Gallery.LookupAppend | src/pages/Admin.tsx:531-543 | looking a name up in two concatenated part lists finds it in the first list if there, else in the second |
| Gallery.MetadataLookup | src/pages/Admin.tsx:532-535 | the metadata parts carry title, description, `String(isFeatured)` and `String(order)`, and no tags or image |
| Gallery.PartsRoundTrip | src/pages/Admin.tsx:531-543 | reading the payload back gives the form's title, description and flag, and `String(order)`, from which `Text.IntToStringInjective` recovers the order; tags are present exactly when they contain a non-whitespace character, the image exactly when a file is held |
| Gallery.SaveRequest | src/pages/Admin.tsx:526-553 | PUT to `/api/gallery/<id>` exactly when editing, otherwise POST to `/api/gallery`, carrying the multipart payload and the auth header when available |
| Gallery.SubmitGallery | src/pages/Admin.tsx:518-572 | with an empty title (required at src/pages/Admin.tsx:1227) nothing happens; a new entry without a file is refused before any request; otherwise the save is issued, success refetches and resets, failure leaves the panel and alerts the server error, the fallback or the exception text |
| Gallery.DeleteImage | src/pages/Admin.tsx:593-619 | nothing happens unless confirmed; success issues the DELETE then the list GET, refetches and raises no alert; failure leaves the panel and alerts the server error, `Error deleting gallery image` or the exception text |
| Gallery.HandlersKeepValid | src/pages/Admin.tsx:166-172 | submit and delete, with the render each causes, keep the URL bookkeeping sound; a successful submit revokes a held preview twice, through the reset and the cleanup |
| Gallery.Unmount | src/pages/Admin.tsx:166-172 | when the console unmounts, the cleanup revokes the preview URL still held, once more, and no other handle |
| Bookings.Query | src/pages/Admin.tsx:345 | the query is empty exactly for `all`, and otherwise `?status=` followed by the status |
| Bookings.QueryRoundTrip | src/pages/Admin.tsx:345 | the query string reads back as the filter it came from |
| Bookings.QueryInjective | src/pages/Admin.tsx:345 | different filters give different queries |
| Bookings.SetFilter | src/pages/Admin.tsx:1037-1040 | choosing a filter changes nothing but the filter |
| Bookings.LoadBookings | src/pages/Admin.tsx:340-359 | an array answer replaces the list, any other 2xx body empties it, a failure keeps the list and records the status message or the exception text; loading ends and the in-flight id is kept |
| Bookings.Enablement | src/pages/Admin.tsx:1135-1157 | while a booking is in flight all its buttons are disabled; otherwise delete is enabled and accept (cancel) is disabled exactly when the status is accepted (cancelled) |
| Bookings.BeginAction | src/pages/Admin.tsx:632-637 | the booking becomes the one in flight and a PATCH to `/api/bookings/<id>/<action>` goes out without an `Authorization` header |
| Bookings.CompleteAction | src/pages/Admin.tsx:639-651 | the in-flight id is cleared after every outcome; success refetches with the current filter, failure alerts the status message or the exception text |
| Bookings.Click | src/pages/Admin.tsx:1134-1146 | a disabled button issues nothing; an enabled one starts the action |
| Bookings.HandleAction | src/pages/Admin.tsx:632-652 | a complete accept or cancel ends with no booking in flight, starting with the PATCH and adding a refetch exactly on success |
| Bookings.NoSecondRequestWhilePending | src/pages/Admin.tsx:1135-1157 | while an action is pending, pressing accept or cancel on that booking issues no request and delete is disabled |
| Bookings.TerminalStatusesStayActionable | src/pages/Admin.tsx:1135-1146 | when not in flight, a cancelled booking can be accepted and an accepted one cancelled |
| Bookings.OverlappingActionsShareTheSlot | src/pages/Admin.tsx:633-651 | one in-flight slot serves the whole list, so the first action to settle re-enables a second booking whose request is still pending |
| Bookings.DeleteBooking | src/pages/Admin.tsx:655-685 | nothing happens unless confirmed; otherwise an authorised DELETE goes out, success refetches and shows the refetched list, failure keeps the list and alerts the status message or exception text, and the in-flight id ends cleared |
| Bookings.DeleteSettlesLikeAction | src/pages/Admin.tsx:632-685 | once confirmed, a delete leaves the same panel as a completed accept or cancel on the same answers, and issues its DELETE before the same follow-up requests |
| Bookings.HandlersSettle | src/pages/Admin.tsx:632-685 | accept, cancel and delete leave a settled panel settled with its filter kept, and a failure keeps the list |
| Wizard.NextStep | src/pages/Booking.tsx:66-70 | the step advances only below 5 |
| Wizard.PrevStep | src/pages/Booking.tsx:72-76 | the step goes back only above 1 |
| Wizard.StepMoves | src/pages/Booking.tsx:66-76 | both moves keep the step in 1..5, each undoes the other away from the ends, and "Previous" is disabled exactly where it would do nothing |
| Wizard.Merge | src/pages/Booking.tsx:79 | `{...formData, ...data}` has every key of both, the current value winning and earlier values surviving otherwise |
| Wizard.MergeLaws | src/pages/Booking.tsx:79 | merging is associative with the empty map as unit, and re-merging the same data changes nothing |
| Wizard.StepErrors | src/pages/Booking.tsx:179-492 | the errors are exactly the failing rules of the fields rendered on the current step, with their messages |
| Wizard.Step1Gate | src/pages/Booking.tsx:191-254 | step 1 passes exactly when brand, model, fuel, year and registration number are filled in |
| Wizard.Step2Gate | src/pages/Booking.tsx:280-296 | step 2 passes exactly when at least one service is selected; the description is optional |
| Wizard.Step3Gate | src/pages/Booking.tsx:318-399 | step 3 passes exactly when name, address and city are filled in, the phone is ten digits, the pincode six digits, and the email is empty or matches the pattern |
| Wizard.Step4Gate | src/pages/Booking.tsx:424-472 | step 4 passes exactly when date, time and service type are filled in |
| Wizard.Step5Gate | src/pages/Booking.tsx:492 | the confirmation step has no inputs, so it never blocks |
| Wizard.UndefinedText | src/pages/Booking.tsx:93 | concatenating a missing `error` member renders `undefined` |
| Wizard.BookingAlert | src/pages/Booking.tsx:89-97 | a parsed 2xx answer gives the success alert, a parsed failure `Failed to submit booking: ` and its error, anything that does not parse or throws `Error submitting booking: ` and the message |
| Wizard.Submit | src/pages/Booking.tsx:78-101 | invalid input changes nothing; otherwise the data is merged, steps 1-4 advance without a request, and step 5 posts the merged data and stays on step 5 |
| Wizard.PostOnlyOnLastStep | src/pages/Booking.tsx:80-87 | a POST goes out exactly on step 5, and its body is the accumulated data merged with the current values |
| Wizard.Apply | src/pages/Booking.tsx:66-101 | one button press moves the step by at most one and never drops accumulated data |
| Wizard.RunStaysInRange | src/pages/Booking.tsx:66-76 | however the buttons are pressed, the step stays within 1..5 |
| Wizard.RunKeepsFields | src/pages/Booking.tsx:79 | a field once accumulated stays present through any run |
| Wizard.ServiceTypeLabel | src/pages/Booking.tsx:537 | the label is `Pickup & Drop` exactly for `pickup`, otherwise `Workshop Visit` |
| Contact.Errors | src/pages/Contact.tsx:226-297 | the errors are exactly the failing rules of the five fields, with their messages |
| Contact.ContactGate | src/pages/Contact.tsx:226-297 | the form is accepted exactly when name, subject and message are filled in, the phone is ten digits and the email is present and matches the pattern |
| Contact.EmailIsRequired | src/pages/Contact.tsx:259-260 | an absent or empty email is refused with `Email is required` |
| Contact.ReadPayload | src/pages/Contact.tsx:38-42 | a body whose content type is not JSON is read as text; a JSON one yields its object, and reading fails exactly when it claims JSON but does not parse |
| Contact.SlicePrefix | src/pages/Contact.tsx:45 | `slice(0, n)` is a prefix of at most n characters, the whole text when shorter |
| Contact.ErrorDetail | src/pages/Contact.tsx:45 | a text body gives exactly its first 200 characters, or all of a shorter one; a JSON body its `error` member or `Request failed` |
| Contact.HttpMessage | src/pages/Contact.tsx:46 | the message is `HTTP `, the decimal status, ` - ` and the detail, each at its own position |
| Contact.HttpMessageReadsBack | src/pages/Contact.tsx:46 | equal messages carry the same status and the same detail |
| Contact.Submit | src/pages/Contact.tsx:27-54 | failing rules stop the submit; otherwise the values are posted, a delivered message thanks the user and clears the form, and any failure keeps the values and alerts `HTTP <status> - <detail>` or the exception text |
| Contact.TextDetailBounded | src/pages/Contact.tsx:44-46 | for a text body the alert is the fixed head followed by exactly `slice(0, 200)` of the body, so at most 200 characters |
| Contact.DetailExamples | src/pages/Contact.tsx:45 | a missing or empty JSON `error` gives `Request failed`; a present one and a short text are reported as they are |
| Faqs.InitialPage | src/pages/FAQs.tsx:6-8 | the page opens on `general` with nothing open and an empty search |
| Faqs.Filter | src/pages/FAQs.tsx:123-126 | the result is a subsequence of the category that holds every matching item as often as the category does and no other item |
| Faqs.EmptySearchShowsAll | src/pages/FAQs.tsx:123-126 | an empty search lists the whole category |
| Faqs.SearchIgnoresCase | src/pages/FAQs.tsx:124-125 | lower-casing the search term does not change which items match |
| Faqs.QuestionMatchShown | src/pages/FAQs.tsx:124 | an item whose question contains the term verbatim is listed |
| Faqs.EmptyStateIff | src/pages/FAQs.tsx:242 | the empty-state message shows exactly when no item of the category matches |
| Faqs.Toggle | src/pages/FAQs.tsx:208 | clicking a header opens that item unless it was the open one, which closes; no other item is open afterwards |
| Faqs.ToggleTwice | src/pages/FAQs.tsx:208 | two clicks on one header restore a closed accordion, or one with that item open |
| Faqs.SetCategory | src/pages/FAQs.tsx:180 | changing the category keeps the open position and the search |
| Faqs.SetSearch | src/pages/FAQs.tsx:163 | changing the search keeps the open position and the category |
| Faqs.NoMatchInOneChar | src/pages/FAQs.tsx:124-125 | a one-letter text does not contain a different letter, case aside |
| Faqs.OpenPositionOutlivesSearch | src/pages/FAQs.tsx:163-222 | since the open item is a position, a search can leave it pointing past the shorter list |
| Auth.CredentialExamples | src/pages/Login.tsx:16 | only `Admin` / `Admin@2000` is accepted; other case, surrounding spaces or a wrong password are not |
| Auth.Login | src/pages/Login.tsx:13-24 | with an empty user ID or password (both `required`, src/pages/Login.tsx:89 and 109) nothing changes; valid credentials set `adminLoggedIn` to `true` and navigate to `/admin`, keeping the error line; other filled-in credentials set the error to `Invalid username or password` and leave the storage untouched |
| Auth.Logout | src/pages/Admin.tsx:621-624 | logout deletes the flag and keeps every other key |
| Auth.CheckAuth | src/components/ProtectedAdmin.tsx:9-11 | logged in exactly when the flag holds the string `true` |
| Auth.InitialGuard | src/components/ProtectedAdmin.tsx:6 | the guard starts logged out |
| Auth.Refresh | src/components/ProtectedAdmin.tsx:9-20 | each check sets the state from the storage |
| Auth.Render | src/components/ProtectedAdmin.tsx:28 | the console shows exactly when logged in, the login form otherwise |
| Auth.LoginThenCheck | src/pages/Login.tsx:17 | a check after a successful login shows the console |
| Auth.LogoutThenCheck | src/pages/Admin.tsx:622 | a check after logout shows the login form |
| Auth.LoginTouchesOnlyTheFlag | src/pages/Login.tsx:16-23 | login changes no key but the flag, and a failed login leaves access as it was |
| Auth.OnlyExactTrueCounts | src/components/ProtectedAdmin.tsx:10 | any flag value other than `true` means logged out |

## Left out

- Network I/O, JSON parsing and response bodies are not modelled: every `fetch` outcome is an input.
  - The fallback text `Unable to read response body`, used when `response.text()` itself rejects, is not modelled: the body text is an input.
  - A non-`Error` value caught by a handler is not modelled; the handlers only ever see `Error` objects.
- `alert` and `confirm` are effects and inputs. `console.error` is dropped.
- The Basic `Authorization` header is built with `window.btoa`, an opaque browser built-in. The header is a configuration input.
- `window.dispatchEvent` and the storage and custom-event listeners are event plumbing. The guard's check is modelled by `Auth.Refresh`, called whenever an event would fire.
- `URL.createObjectURL` returns a fresh numbered handle. The model states at-least-once revocation of every superseded preview URL and shows the double revocation; it does not claim exactly once.
- `parseFloat` of the rating and `Number(...)` of the order are not modelled: the rating is a real, the order an integer.
- Browser-native constraint validation is modelled only for `required`, as a non-empty check: on the service form (`Services.Complete`), on the gallery title (`Gallery.SubmitGallery`) and on both login inputs (`Auth.Login`). Not modelled are `type="email"`, the rating's `min`/`max`/`step`, the year's `min`/`max` (which depend on the clock) and the date's `min`.
- An emptied rating input is not modelled: it gives `NaN`, which the browser's `required` check refuses, but the model's rating is always a number.
- The FAQ search lower-cases ASCII letters only, not the full Unicode case mapping of `toLowerCase`. The FAQ texts themselves are static content and enter as a `Faqs.Table` parameter.
- String lengths count characters, not UTF-16 code units, so `slice(0, 200)` is modelled on characters.
- The deferred `setTimeout` refetch after a filter change is left out. It is a timing and closure issue: the callback sees the filter of the previous render.
- The saving flags `serviceSaving` and `gallerySaving` are not modelled. They disable the submit button while a save is in flight (src/pages/Admin.tsx:932 and 1313), which blocks a second submit. The model treats each save handler as one atomic step from submit to settled state, so no second submit can fall inside it. The bookings panel is different: its in-flight id is shared by all rows and outlives one handler while another booking's request is pending, so `Bookings` models it.
- The panel loading flags only drive spinners and are not modelled beyond their final value. Neither are the admin tab choice, JSX rendering and animation.
- The booking summary on step 5 is not modelled beyond `Wizard.ServiceTypeLabel`: the rest only echoes the values.
- A JSON body that is itself a string is not modelled. For the contact form it would be sliced like text.
- The infinite-scroll gallery pager is not modelled.
- src/pages/Services.tsx is not part of this model. Its fetch-or-fallback choice is the one `Services.LoadServices` states.
- Static pages and components have no decision logic: Home, About, Brands, Footer, Navbar, Layout, and the routing table in App.tsx.
- Services.FallbackEntry: states that each built-in service has an id, four features and a rating in range, not the exact ids and texts. The texts are in its body.
- Services.FallbackServices: states the count and the per-entry facts of `FallbackEntry`, not that the ids run `1` to `12`.
- Contact.Submit: when the body claims JSON but does not parse, states only that the alert carries the `Error submitting message: ` prefix, not the parse message itself.

=== FILE: auth.dfy ===
/** The admin gate: the login form's fixed credentials, the `adminLoggedIn`
    flag in the browser's local storage, the guard that shows the console or
    the login form according to that flag, and logout. */
module Auth {
  import opened Fetch

  /** The browser's local storage: string keys to string values. */
  type Store = map<string, string>

  const FlagKey := "adminLoggedIn"
  const FlagOn := "true"
  const AdminUser := "Admin"
  const AdminPassword := "Admin@2000"
  const AdminPath := "/admin"
  const InvalidCredentials := "Invalid username or password"

  /** The credentials are compared exactly: no trimming, no case folding. */
  predicate CredentialsMatch(username: string, password: string) {
    username == AdminUser && password == AdminPassword
  }

  lemma CredentialExamples()
    ensures CredentialsMatch("Admin", "Admin@2000")
    ensures !CredentialsMatch("admin", "Admin@2000")
    ensures !CredentialsMatch(" Admin", "Admin@2000")
    ensures !CredentialsMatch("Admin ", "Admin@2000")
    ensures !CredentialsMatch("Admin", "admin@2000")
    ensures !CredentialsMatch("", "")
  {
    assert "admin"[0] != AdminUser[0];
    assert " Admin"[0] != AdminUser[0];
    assert |"Admin "| != |AdminUser|;
    assert "admin@2000"[0] != AdminPassword[0];
  }

  /** The login form's state after a submit: the storage, where the router is
      sent (if anywhere) and the error line, which a success leaves as it was. */
  datatype LoginResult = LoginResult(store: Store, navigate: Option<string>, error: string)

  /** Pressing "Login". Both inputs are `required`, so with either one empty
      the browser does not submit and nothing changes; otherwise the handler
      compares the credentials. */
  function Login(store: Store, username: string, password: string, error: string): (r: LoginResult)
    ensures username == "" || password == "" ==> r == LoginResult(store, None, error)
    ensures CredentialsMatch(username, password) ==>
      r.store == store[FlagKey := FlagOn] && r.navigate == Some(AdminPath) && r.error == error
    ensures username != "" && password != "" && !CredentialsMatch(username, password) ==>
      r.store == store && r.navigate.None? && r.error == InvalidCredentials
    ensures !CredentialsMatch(username, password) ==> r.store == store && r.navigate.None?
  {
    if username == "" || password == "" then LoginResult(store, None, error)
    else if CredentialsMatch(username, password) then
      LoginResult(store[FlagKey := FlagOn], Some(AdminPath), error)
    else
      LoginResult(store, None, InvalidCredentials)
  }

  /** Logging out deletes the flag. */
  function Logout(store: Store): (r: Store)
    ensures FlagKey !in r
    ensures forall k :: k != FlagKey ==> (k in r <==> k in store)
    ensures forall k :: k in r ==> r[k] == store[k]
  {
    map k | k in store && k != FlagKey :: store[k]
  }

  // ---------------------------------------------------------------------------
  // The guard

  /** The check the guard runs on mount and on every login change: logged in
      exactly when the flag holds the string `true`. */
  function CheckAuth(store: Store): (r: bool)
    ensures r <==> FlagKey in store && store[FlagKey] == FlagOn
  {
    FlagKey in store && store[FlagKey] == FlagOn
  }

  datatype Guard = Guard(loggedIn: bool)

  datatype View = AdminConsole | LoginForm

  /** Before its first check the guard counts as logged out. */
  function InitialGuard(): (g: Guard)
    ensures !g.loggedIn
  {
    Guard(false)
  }

  function Refresh(g: Guard, store: Store): (r: Guard)
    ensures r.loggedIn == CheckAuth(store)
  {
    Guard(CheckAuth(store))
  }

  function Render(g: Guard): (v: View)
    ensures v == AdminConsole <==> g.loggedIn
    ensures v == LoginForm <==> !g.loggedIn
  {
    if g.loggedIn then AdminConsole else LoginForm
  }

  /** A check after a successful login shows the console, whatever the storage
      held before. */
  lemma LoginThenCheck(store: Store, error: string, g: Guard)
    ensures Render(Refresh(g, Login(store, AdminUser, AdminPassword, error).store)) == AdminConsole
  {
  }

  /** A check after logout shows the login form, whatever the storage held. */
  lemma LogoutThenCheck(store: Store, g: Guard)
    ensures Render(Refresh(g, Logout(store))) == LoginForm
  {
  }

  /** A failed login neither grants nor revokes access, and touches no other
      key; a successful one changes only the flag. */
  lemma LoginTouchesOnlyTheFlag(store: Store, username: string, password: string, error: string, k: string)
    requires k != FlagKey
    ensures var r := Login(store, username, password, error).store;
            (k in r <==> k in store) && (k in r ==> r[k] == store[k])
    ensures !CredentialsMatch(username, password) ==>
      CheckAuth(Login(store, username, password, error).store) == CheckAuth(store)
  {
  }

  /** Any other value of the flag, such as `True` or `1`, means logged out. */
  lemma OnlyExactTrueCounts(store: Store, v: string)
    requires v != FlagOn
    ensures !CheckAuth(store[FlagKey := v])
  {
  }
}

=== FILE: bookings.dfy ===
/** The bookings tab of the admin console: the list filtered by status, the
    accept / cancel / delete buttons with their enablement, and the single
    "action in flight" id that disables a booking's buttons while its request
    is pending. A handler is split at its `await` into the part that issues
    the request and the part that runs once the request has settled. */
module Bookings {
  import opened Fetch
  import opened Text

  datatype Status = Pending | Accepted | Cancelled

  datatype Booking = Booking(
    id: string,
    brand: string,
    model: string,
    year: Option<string>,
    registrationNumber: Option<string>,
    fuel: Option<string>,
    services: seq<string>,
    description: Option<string>,
    date: Option<string>,
    time: Option<string>,
    serviceType: Option<string>,
    name: string,
    phone: string,
    address: Option<string>,
    city: Option<string>,
    pincode: Option<string>,
    email: Option<string>,
    status: Status,
    createdAt: Option<string>)

  /** The status filter select: `all` or one status. */
  datatype Filter = All | Only(status: Status)

  /** A 2xx body of the list endpoint: an array, or anything else. */
  datatype Listing = Array(items: seq<Booking>) | NotArray

  datatype Panel = Panel(
    bookings: seq<Booking>,
    loading: bool,
    error: Option<string>,
    inFlight: Option<string>,
    filter: Filter)

  datatype Action = Accept | Cancel

  datatype Result = Result(panel: Panel, requests: seq<Request<()>>, alert: Option<string>)

  function InitialPanel(): Panel {
    Panel([], true, None, None, All)
  }

  function StatusName(s: Status): string {
    match s
    case Pending => "pending"
    case Accepted => "accepted"
    case Cancelled => "cancelled"
  }

  function ActionName(a: Action): string {
    match a
    case Accept => "accept"
    case Cancel => "cancel"
  }

  // ---------------------------------------------------------------------------
  // The list query

  /** The query string of the list request: empty for `all`, else `?status=` and the status. */
  function Query(f: Filter): (q: string)
    ensures q == "" <==> f.All?
    ensures f.Only? ==> q == "?status=" + StatusName(f.status)
  {
    match f
    case All => ""
    case Only(s) => "?status=" + StatusName(s)
  }

  /** Reading the filter back from a query string. */
  function ParseQuery(q: string): Option<Filter> {
    if q == "" then Some(All)
    else if q == "?status=pending" then Some(Only(Pending))
    else if q == "?status=accepted" then Some(Only(Accepted))
    else if q == "?status=cancelled" then Some(Only(Cancelled))
    else None
  }

  /** The query identifies the filter: reading it back gives the filter, so
      no two filters share a query. */
  lemma QueryRoundTrip(f: Filter)
    ensures ParseQuery(Query(f)) == Some(f)
  {
  }

  lemma QueryInjective(f: Filter, g: Filter)
    ensures Query(f) == Query(g) ==> f == g
  {
    QueryRoundTrip(f);
    QueryRoundTrip(g);
  }

  function ListRequest(cfg: Config, f: Filter): Request<()> {
    Request(GET, cfg.apiUrl + "/api/bookings" + Query(f), None, ())
  }

  /** Choosing a filter only records it. */
  function SetFilter(p: Panel, f: Filter): (r: Panel)
    ensures r.filter == f && r.(filter := p.filter) == p
  {
    p.(filter := f)
  }

  /** A 2xx array replaces the list (a non-array body empties it) and clears
      the error; a failure keeps the list and records the message. */
  function LoadBookings(p: Panel, outcome: Outcome<Listing>): (r: Panel)
    ensures !r.loading && r.inFlight == p.inFlight && r.filter == p.filter
    ensures outcome.Ok? && outcome.value.Array? ==> r.bookings == outcome.value.items && r.error.None?
    ensures outcome.Ok? && outcome.value.NotArray? ==> r.bookings == [] && r.error.None?
    ensures !outcome.Ok? ==> r.bookings == p.bookings && r.error.Some?
    ensures outcome.HttpError? ==> r.error == Some(StatusMessage("Failed to load bookings: ",
                                      outcome.status, outcome.statusText, outcome.body.text))
    ensures outcome.Thrown? ==> r.error == Some(outcome.message)
  {
    match outcome
    case Ok(Array(items)) => p.(bookings := items, error := None, loading := false)
    case Ok(NotArray) => p.(bookings := [], error := None, loading := false)
    case HttpError(st, stt, body) =>
      p.(error := Some(StatusMessage("Failed to load bookings: ", st, stt, body.text)), loading := false)
    case Thrown(m) => p.(error := Some(m), loading := false)
  }

  // ---------------------------------------------------------------------------
  // Button enablement

  predicate AcceptDisabled(p: Panel, b: Booking) {
    b.status == Accepted || p.inFlight == Some(b.id)
  }

  predicate CancelDisabled(p: Panel, b: Booking) {
    b.status == Cancelled || p.inFlight == Some(b.id)
  }

  predicate DeleteDisabled(p: Panel, b: Booking) {
    p.inFlight == Some(b.id)
  }

  predicate ActionDisabled(p: Panel, b: Booking, a: Action) {
    match a
    case Accept => AcceptDisabled(p, b)
    case Cancel => CancelDisabled(p, b)
  }

  /** While a booking's request is pending all three of its buttons are
      disabled; otherwise delete is enabled and accept (cancel) is disabled
      exactly when the booking already has that status. */
  lemma Enablement(p: Panel, b: Booking)
    ensures p.inFlight == Some(b.id) ==> AcceptDisabled(p, b) && CancelDisabled(p, b) && DeleteDisabled(p, b)
    ensures p.inFlight != Some(b.id) ==>
      && !DeleteDisabled(p, b)
      && (AcceptDisabled(p, b) <==> b.status == Accepted)
      && (CancelDisabled(p, b) <==> b.status == Cancelled)
  {
  }

  // ---------------------------------------------------------------------------
  // Accept and cancel

  function ActionRequest(cfg: Config, id: string, a: Action): Request<()> {
    Request(PATCH, cfg.apiUrl + "/api/bookings/" + id + "/" + ActionName(a), None, ())
  }

  /** Up to the `await`: the booking becomes the one in flight and the PATCH
      goes out, without an `Authorization` header. */
  function BeginAction(cfg: Config, p: Panel, id: string, a: Action): (r: Result)
    ensures r.panel == p.(inFlight := Some(id))
    ensures r.requests == [ActionRequest(cfg, id, a)] && r.requests[0].authorization.None?
    ensures r.alert.None?
  {
    Result(p.(inFlight := Some(id)), [ActionRequest(cfg, id, a)], None)
  }

  /** After the `await`: on success a refetch with the current filter, on
      failure an alert; in every case the in-flight id is cleared. */
  function CompleteAction(cfg: Config, p: Panel, a: Action, outcome: Outcome<()>, refetch: Outcome<Listing>): (r: Result)
    ensures r.panel.inFlight.None?
    ensures outcome.Ok? ==> r.requests == [ListRequest(cfg, p.filter)] && r.panel == LoadBookings(p, refetch).(inFlight := None)
    ensures !outcome.Ok? ==> r.requests == [] && r.panel == p.(inFlight := None) && r.alert.Some?
    ensures outcome.HttpError? ==> r.alert == Some(StatusMessage("Failed to " + ActionName(a) + " booking: ",
                                      outcome.status, outcome.statusText, outcome.body.text))
    ensures outcome.Thrown? ==> r.alert == Some(outcome.message)
  {
    match outcome
    case Ok(_) => Result(LoadBookings(p, refetch).(inFlight := None), [ListRequest(cfg, p.filter)], None)
    case HttpError(st, stt, body) =>
      Result(p.(inFlight := None), [], Some(StatusMessage("Failed to " + ActionName(a) + " booking: ", st, stt, body.text)))
    case Thrown(m) => Result(p.(inFlight := None), [], Some(m))
  }

  /** Clicking accept or cancel: a disabled button does nothing; an enabled one
      starts the action. */
  function Click(cfg: Config, p: Panel, b: Booking, a: Action): (r: Result)
    ensures ActionDisabled(p, b, a) ==> r == Result(p, [], None)
    ensures !ActionDisabled(p, b, a) ==> r == BeginAction(cfg, p, b.id, a)
  {
    if ActionDisabled(p, b, a) then Result(p, [], None) else BeginAction(cfg, p, b.id, a)
  }

  /** The whole accept / cancel handler, from click to settled state. */
  function HandleAction(cfg: Config, p: Panel, b: Booking, a: Action, outcome: Outcome<()>, refetch: Outcome<Listing>): (r: Result)
    ensures ActionDisabled(p, b, a) ==> r == Result(p, [], None)
    ensures !ActionDisabled(p, b, a) ==>
      && r.panel.inFlight.None?
      && |r.requests| >= 1 && r.requests[0] == ActionRequest(cfg, b.id, a)
      && (outcome.Ok? <==> |r.requests| == 2)
  {
    var start := Click(cfg, p, b, a);
    if start.requests == [] then start
    else
      var done := CompleteAction(cfg, start.panel, a, outcome, refetch);
      Result(done.panel, start.requests + done.requests, done.alert)
  }

  /** Re-issuing an action is a no-op while its first request is pending. */
  lemma NoSecondRequestWhilePending(cfg: Config, p: Panel, b: Booking, a: Action, a': Action)
    ensures Click(cfg, BeginAction(cfg, p, b.id, a).panel, b, a').requests == []
    ensures DeleteDisabled(BeginAction(cfg, p, b.id, a).panel, b)
  {
  }

  /** The status filter is not a state machine in the buttons: a cancelled
      booking can still be accepted and an accepted one cancelled. */
  lemma TerminalStatusesStayActionable(p: Panel, b: Booking)
    requires p.inFlight != Some(b.id)
    ensures b.status == Cancelled ==> !AcceptDisabled(p, b)
    ensures b.status == Accepted ==> !CancelDisabled(p, b)
  {
  }

  /** There is one in-flight slot for the whole list: when two actions overlap,
      the first to settle re-enables the other booking's buttons although its
      request is still pending. */
  lemma OverlappingActionsShareTheSlot(cfg: Config, p: Panel, b1: Booking, b2: Booking, outcome: Outcome<()>, refetch: Outcome<Listing>)
    requires b1.id != b2.id && b2.status == Pending
    ensures var q := BeginAction(cfg, BeginAction(cfg, p, b1.id, Accept).panel, b2.id, Accept).panel;
            !AcceptDisabled(CompleteAction(cfg, q, Accept, outcome, refetch).panel, b2)
  {
  }

  // ---------------------------------------------------------------------------
  // Delete

  function DeleteRequest(cfg: Config, id: string): Request<()> {
    Request(DELETE, cfg.apiUrl + "/api/bookings/" + id, AuthHeader(cfg.authHeader), ())
  }

  /** Deleting a booking: nothing unless confirmed; otherwise the booking is in
      flight for the DELETE, then refetch or alert, and the slot is cleared. */
  function DeleteBooking(cfg: Config, p: Panel, id: string, confirmed: bool,
                         outcome: Outcome<()>, refetch: Outcome<Listing>): (r: Result)
    ensures !confirmed ==> r == Result(p, [], None)
    ensures confirmed ==>
      && r.panel.inFlight.None?
      && |r.requests| >= 1 && r.requests[0] == DeleteRequest(cfg, id)
      && (outcome.Ok? ==> r.requests == [DeleteRequest(cfg, id), ListRequest(cfg, p.filter)])
      && (outcome.Ok? ==> r.panel == LoadBookings(p.(inFlight := Some(id)), refetch).(inFlight := None) && r.alert.None?)
      && (!outcome.Ok? ==> r.panel == p.(inFlight := None) && r.alert.Some?)
    ensures confirmed && outcome.HttpError? ==> r.alert == Some(StatusMessage("Failed to delete booking: ",
                                      outcome.status, outcome.statusText, outcome.body.text))
    ensures confirmed && outcome.Thrown? ==> r.alert == Some(outcome.message)
  {
    if !confirmed then Result(p, [], None)
    else
      var q := p.(inFlight := Some(id));
      var req := DeleteRequest(cfg, id);
      match outcome
      case Ok(_) => Result(LoadBookings(q, refetch).(inFlight := None), [req, ListRequest(cfg, p.filter)], None)
      case HttpError(st, stt, body) =>
        Result(q.(inFlight := None), [req], Some(StatusMessage("Failed to delete booking: ", st, stt, body.text)))
      case Thrown(m) => Result(q.(inFlight := None), [req], Some(m))
  }

  /** Once its confirmation is given, a delete settles the panel exactly as the
      completion of an accept or cancel does: the same slot is held and then
      cleared, and the same refetch follows success. */
  lemma DeleteSettlesLikeAction(cfg: Config, p: Panel, id: string, a: Action,
                                outcome: Outcome<()>, refetch: Outcome<Listing>)
    ensures var d := DeleteBooking(cfg, p, id, true, outcome, refetch);
            var c := CompleteAction(cfg, BeginAction(cfg, p, id, a).panel, a, outcome, refetch);
            && d.panel == c.panel
            && d.requests == [DeleteRequest(cfg, id)] + c.requests
  {
  }

  /** A settled panel, with no request pending and the list loaded. */
  predicate Settled(p: Panel) {
    p.inFlight.None? && !p.loading
  }

  /** Every complete handler leaves a settled panel settled and keeps the
      filter; a failure also keeps the list. */
  lemma HandlersSettle(cfg: Config, p: Panel, b: Booking, a: Action, id: string, confirmed: bool,
                       outcome: Outcome<()>, refetch: Outcome<Listing>)
    requires Settled(p)
    ensures Settled(HandleAction(cfg, p, b, a, outcome, refetch).panel)
    ensures Settled(DeleteBooking(cfg, p, id, confirmed, outcome, refetch).panel)
    ensures HandleAction(cfg, p, b, a, outcome, refetch).panel.filter == p.filter
    ensures DeleteBooking(cfg, p, id, confirmed, outcome, refetch).panel.filter == p.filter
    ensures !outcome.Ok? ==>
      && HandleAction(cfg, p, b, a, outcome, refetch).panel.bookings == p.bookings
      && DeleteBooking(cfg, p, id, confirmed, outcome, refetch).panel.bookings == p.bookings
  {
  }
}

=== FILE: contact.dfy ===
/** The contact form: five required fields, the phone and email patterns, and
    the handler that posts the message and turns a failed answer into an
    `HTTP <status> - <detail>` alert. */
module Contact {
  import opened Fetch
  import opened Text
  import opened Validation

  datatype Field = Name | Email | Phone | Subject | Message

  type Data = map<Field, Value>

  function Lookup(values: Data, f: Field): Option<Value> {
    if f in values then Some(values[f]) else None
  }

  const EmailRequired := "Email is required"

  function RuleOf(f: Field): Rule {
    match f
    case Name => Rule(Some("Name is required"), None)
    case Email => Rule(Some(EmailRequired), Some(PatternRule(EmailAddress, EmailInvalid)))
    case Phone => PhoneRule
    case Subject => Rule(Some("Subject is required"), None)
    case Message => Rule(Some("Message is required"), None)
  }

  const AllFields: set<Field> := {Name, Email, Phone, Subject, Message}

  /** The message of every field failing its rule; all five are on screen. */
  function Errors(values: Data): (r: map<Field, string>)
    ensures forall f :: f in r <==> Check(RuleOf(f), Lookup(values, f)).Some?
    ensures forall f :: f in r ==> r[f] == Check(RuleOf(f), Lookup(values, f)).value
  {
    map f | f in AllFields && Check(RuleOf(f), Lookup(values, f)).Some? :: Check(RuleOf(f), Lookup(values, f)).value
  }

  predicate Filled(values: Data, f: Field) {
    !IsEmpty(Lookup(values, f))
  }

  /** The form is accepted exactly when name, subject and message are filled
      in, the phone is ten digits and the email is `x@y` without whitespace. */
  lemma ContactGate(values: Data)
    requires forall f :: f in values ==> values[f].Str?
    ensures Errors(values) == map[] <==>
      && Filled(values, Name) && Filled(values, Subject) && Filled(values, Message)
      && Phone in values && |values[Phone].text| == 10 && AllDigits(values[Phone].text)
      && Email in values && EmailShape(values[Email].text)
  {
    if Errors(values) == map[] {
      assert Name !in Errors(values);
      assert Email !in Errors(values);
      assert Phone !in Errors(values);
      assert Subject !in Errors(values);
      assert Message !in Errors(values);
    }
  }

  /** Unlike the booking wizard, an empty email is refused here. */
  lemma EmailIsRequired(values: Data)
    requires Email !in values || values[Email] == Str("")
    ensures Errors(values)[Email] == EmailRequired
  {
  }

  // ---------------------------------------------------------------------------
  // Reading the answer

  /** The body as the handler holds it: text when the `content-type` does not
      name JSON, otherwise the parsed object's `error` member. */
  datatype Payload = TextPayload(text: string) | JsonPayload(error: Option<string>)

  /** Reading the body; `None` when it claims to be JSON but does not parse,
      which makes the handler throw. */
  function ReadPayload(body: Body): (r: Option<Payload>)
    ensures r.None? <==> body.isJson && body.json.Malformed?
    ensures !body.isJson ==> r == Some(TextPayload(body.text))
    ensures body.isJson && body.json.Object? ==> r == Some(JsonPayload(body.json.error))
  {
    if !body.isJson then Some(TextPayload(body.text))
    else match body.json
      case Object(e) => Some(JsonPayload(e))
      case Malformed(_) => None
  }

  /** `s.slice(0, n)`: the first `n` characters, or all of a shorter string. */
  function SlicePrefix(s: string, n: nat): (r: string)
    ensures |r| <= n && r <= s
    ensures |s| <= n ==> r == s
    ensures |s| > n ==> |r| == n
  {
    if |s| <= n then s else s[..n]
  }

  const DetailLimit := 200
  const RequestFailed := "Request failed"

  /** The detail of a failed answer: the text cut to 200 characters, or the
      JSON `error` member, with `Request failed` when that is missing or empty. */
  function ErrorDetail(p: Payload): (r: string)
    ensures p.TextPayload? ==> |r| <= DetailLimit && r <= p.text && (|p.text| <= DetailLimit ==> r == p.text)
    ensures p.TextPayload? && |p.text| > DetailLimit ==> r == p.text[..DetailLimit]
    ensures p.JsonPayload? ==> r == OrElse(p.error, RequestFailed)
  {
    match p
    case TextPayload(t) => SlicePrefix(t, DetailLimit)
    case JsonPayload(e) => OrElse(e, RequestFailed)
  }

  const HttpHead := "HTTP "
  const HttpSeparator := " - "

  /** `HTTP ${status} - ${detail}`. */
  function HttpMessage(status: nat, p: Payload): (r: string)
    ensures var n := |HttpHead| + |NatToString(status)|;
            && |r| == n + |HttpSeparator| + |ErrorDetail(p)|
            && r[..|HttpHead|] == HttpHead
            && r[|HttpHead|..n] == NatToString(status)
            && r[n..n + |HttpSeparator|] == HttpSeparator
            && r[n + |HttpSeparator|..] == ErrorDetail(p)
  {
    var r := HttpHead + NatToString(status) + HttpSeparator + ErrorDetail(p);
    assert r == HttpHead + NatToString(status) + (HttpSeparator + ErrorDetail(p));
    r
  }

  /** The alert determines what it reports: equal messages carry the same
      status and the same detail. */
  lemma HttpMessageReadsBack(s1: nat, p1: Payload, s2: nat, p2: Payload)
    ensures HttpMessage(s1, p1) == HttpMessage(s2, p2) ==> s1 == s2 && ErrorDetail(p1) == ErrorDetail(p2)
  {
    if HttpMessage(s1, p1) == HttpMessage(s2, p2) {
      var rest1, rest2 := HttpSeparator + ErrorDetail(p1), HttpSeparator + ErrorDetail(p2);
      assert rest1[0] == ' ' && rest2[0] == ' ';
      HeadDigitsUnique(HttpHead, NatToString(s1), rest1, NatToString(s2), rest2);
      NatToStringInjective(s1, s2);
      assert ErrorDetail(p1) == rest1[|HttpSeparator|..];
    }
  }

  // ---------------------------------------------------------------------------
  // Submitting

  const DefaultBase := "http://localhost:5000"
  const ThankYou := "Thank you for your message! We will get back to you within 24 hours."
  const ErrorPrefix := "Error submitting message: "

  /** The API base: the configured URL, or the local default when it is unset
      or empty. */
  function ApiBase(configured: Option<string>): string {
    OrElse(configured, DefaultBase)
  }

  /** The alert of the `catch` block. */
  function Failure(message: string): (r: string)
    ensures r == ErrorPrefix + message && r[..|ErrorPrefix|] == ErrorPrefix
  {
    ErrorPrefix + message
  }

  datatype ContactResult = ContactResult(
    values: Data,
    errors: map<Field, string>,
    request: Option<Request<Data>>,
    alert: Option<string>)

  /** The answer arrived, was readable, and was 2xx. */
  predicate Delivered(outcome: Outcome<Body>) {
    outcome.Ok? && ReadPayload(outcome.value).Some?
  }

  /** Pressing "Send": nothing but field errors when a rule fails; otherwise a
      POST of the values and one alert, the form being cleared only when the
      message was delivered. */
  function Submit(configured: Option<string>, values: Data, outcome: Outcome<Body>): (r: ContactResult)
    ensures r.errors == Errors(values)
    ensures r.errors != map[] ==> r == ContactResult(values, r.errors, None, None)
    ensures r.errors == map[] ==>
      && r.request == Some(Request(POST, ApiBase(configured) + "/api/contact", None, values))
      && r.alert.Some?
      && (r.values == map[] <== Delivered(outcome))
      && (!Delivered(outcome) ==> r.values == values)
      && (Delivered(outcome) ==> r.alert == Some(ThankYou))
      && (!Delivered(outcome) ==> |r.alert.value| >= |ErrorPrefix| && r.alert.value[..|ErrorPrefix|] == ErrorPrefix)
    ensures r.errors == map[] && outcome.HttpError? && ReadPayload(outcome.body).Some? ==>
      r.alert == Some(ErrorPrefix + HttpMessage(outcome.status, ReadPayload(outcome.body).value))
    ensures r.errors == map[] && outcome.Thrown? ==> r.alert == Some(ErrorPrefix + outcome.message)
  {
    var errors := Errors(values);
    if errors != map[] then ContactResult(values, errors, None, None)
    else
      var req := Some(Request(POST, ApiBase(configured) + "/api/contact", None, values));
      match outcome
      case Thrown(m) => ContactResult(values, errors, req, Some(Failure(m)))
      case Ok(body) =>
        (match ReadPayload(body)
         case Some(_) => ContactResult(map[], errors, req, Some(ThankYou))
         case None => ContactResult(values, errors, req, Some(Failure(body.json.message))))
      case HttpError(status, _, body) =>
        (match ReadPayload(body)
         case Some(p) => ContactResult(values, errors, req, Some(Failure(HttpMessage(status, p))))
         case None => ContactResult(values, errors, req, Some(Failure(body.json.message))))
  }

  /** A failed answer with a text body reports at most 200 characters of it,
      after the `HTTP <status> - ` head. */
  lemma TextDetailBounded(configured: Option<string>, values: Data, status: nat, statusText: string, body: Body)
    requires Errors(values) == map[] && !body.isJson
    ensures var a := Submit(configured, values, HttpError(status, statusText, body)).alert.value;
            var head := ErrorPrefix + "HTTP " + NatToString(status) + " - ";
            && a[..|head|] == head
            && |a| <= |head| + DetailLimit
            && a[|head|..] == SlicePrefix(body.text, DetailLimit)
  {
    var head := ErrorPrefix + "HTTP " + NatToString(status) + " - ";
    var detail := ErrorDetail(TextPayload(body.text));
    assert ErrorPrefix + HttpMessage(status, TextPayload(body.text)) == head + detail;
  }

  lemma DetailExamples()
    ensures ErrorDetail(JsonPayload(None)) == RequestFailed
    ensures ErrorDetail(JsonPayload(Some(""))) == RequestFailed
    ensures ErrorDetail(JsonPayload(Some("Invalid email"))) == "Invalid email"
    ensures ErrorDetail(TextPayload("Bad Gateway")) == "Bad Gateway"
  {
  }
}

=== FILE: faqs.dfy ===
/** The FAQ page: five categories of questions, a search box that filters the
    active category case-insensitively over question and answer, and an
    accordion in which at most one answer is open. The open item is kept as a
    position in the filtered list, not as a reference to a question. */
module Faqs {
  import opened Fetch
  import opened Text

  datatype Faq = Faq(question: string, answer: string)

  datatype Category = General | ServiceQuestions | Pricing | Appointments | Warranty

  /** The page's built-in questions, one list per category. */
  datatype Table = Table(
    general: seq<Faq>,
    services: seq<Faq>,
    pricing: seq<Faq>,
    appointments: seq<Faq>,
    warranty: seq<Faq>)

  function Entries(t: Table, c: Category): seq<Faq> {
    match c
    case General => t.general
    case ServiceQuestions => t.services
    case Pricing => t.pricing
    case Appointments => t.appointments
    case Warranty => t.warranty
  }

  datatype Page = Page(category: Category, open: Option<nat>, search: string)

  function InitialPage(): (p: Page)
    ensures p.category == General && p.open.None? && p.search == ""
  {
    Page(General, None, "")
  }

  // ---------------------------------------------------------------------------
  // Search

  /** An item matches when its lower-cased question or answer contains the
      lower-cased search term. */
  predicate Shown(x: Faq, term: string) {
    Contains(Lower(x.question), Lower(term)) || Contains(Lower(x.answer), Lower(term))
  }

  /** `b` can be obtained from `a` by deleting elements, keeping order. */
  ghost predicate Subsequence(b: seq<Faq>, a: seq<Faq>)
    decreases |a|
  {
    if b == [] then true
    else if a == [] then false
    else (b[0] == a[0] && Subsequence(b[1..], a[1..])) || Subsequence(b, a[1..])
  }

  /** The items of `list` that match `term`, in their original order. */
  function Filter(list: seq<Faq>, term: string): (r: seq<Faq>)
    ensures |r| <= |list|
    ensures forall x :: x in r <==> x in list && Shown(x, term)
    ensures Subsequence(r, list)
    ensures forall x :: multiset(r)[x] == if Shown(x, term) then multiset(list)[x] else 0
    decreases |list|
  {
    if list == [] then []
    else
      var rest := Filter(list[1..], term);
      assert forall x :: x in list <==> x == list[0] || x in list[1..];
      assert list == [list[0]] + list[1..];
      assert multiset(list) == multiset{list[0]} + multiset(list[1..]);
      if Shown(list[0], term) then
        var r := [list[0]] + rest;
        assert r[1..] == rest;
        r
      else
        rest
  }

  /** What the page lists for the active category and search term. */
  function Visible(t: Table, p: Page): seq<Faq> {
    Filter(Entries(t, p.category), p.search)
  }

  /** Searching for nothing shows the whole category. */
  lemma {:induction false} EmptySearchShowsAll(list: seq<Faq>)
    ensures Filter(list, "") == list
    decreases |list|
  {
    if list != [] {
      assert OccursAt(Lower(list[0].question), Lower(""), 0);
      EmptySearchShowsAll(list[1..]);
    }
  }

  /** The search ignores ASCII case: lower-casing the term changes nothing. */
  lemma SearchIgnoresCase(x: Faq, term: string)
    ensures Shown(x, Lower(term)) <==> Shown(x, term)
  {
    LowerIdempotent(term);
  }

  /** Every item whose question contains the term verbatim is listed. */
  lemma QuestionMatchShown(x: Faq, term: string, i: nat)
    requires OccursAt(x.question, term, i)
    ensures Shown(x, term)
  {
    var q := Lower(x.question);
    assert q[i..i + |term|] == Lower(term) by {
      forall k | 0 <= k < |term| ensures q[i..i + |term|][k] == Lower(term)[k] {
        assert x.question[i + k] == term[k];
      }
    }
    assert OccursAt(q, Lower(term), i);
  }

  /** The empty-state message is shown exactly when no item of the category
      matches. */
  predicate EmptyState(t: Table, p: Page) {
    |Visible(t, p)| == 0
  }

  lemma EmptyStateIff(t: Table, p: Page)
    ensures EmptyState(t, p) <==> forall x :: x in Entries(t, p.category) ==> !Shown(x, p.search)
  {
    var v := Visible(t, p);
    if |v| > 0 {
      assert v[0] in v;
    }
  }

  // ---------------------------------------------------------------------------
  // Accordion and controls

  predicate IsOpen(p: Page, i: nat) {
    p.open == Some(i)
  }

  /** Clicking an item's header: it closes if it was the open one, otherwise it
      opens and any other closes. */
  function Toggle(p: Page, i: nat): (r: Page)
    ensures forall j: nat :: IsOpen(r, j) <==> j == i && !IsOpen(p, i)
    ensures r.category == p.category && r.search == p.search
  {
    p.(open := if p.open == Some(i) then None else Some(i))
  }

  /** Clicking the same header twice restores the accordion when it started
      closed or with that item open. */
  lemma ToggleTwice(p: Page, i: nat)
    requires p.open.None? || p.open == Some(i)
    ensures Toggle(Toggle(p, i), i) == p
  {
  }

  function SetCategory(p: Page, c: Category): (r: Page)
    ensures r.category == c && r.open == p.open && r.search == p.search
  {
    p.(category := c)
  }

  function SetSearch(p: Page, term: string): (r: Page)
    ensures r.search == term && r.open == p.open && r.category == p.category
  {
    p.(search := term)
  }

  /** A one-letter text that is not the lower-cased letter does not contain it. */
  lemma NoMatchInOneChar(c: char, d: char)
    requires LowerChar(c) != LowerChar(d)
    ensures !Contains(Lower([c]), Lower([d]))
  {
    forall i ensures !OccursAt(Lower([c]), Lower([d]), i) {
      if i == 0 {
        assert Lower([c])[0..1][0] != Lower([d])[0];
      }
    }
  }

  /** Because the open item is a position, changing the search can move it onto
      a different question: here the second question is open, and after a
      search that hides the first one the open position names nothing. */
  lemma OpenPositionOutlivesSearch()
    ensures var t := Table([Faq("a", "x"), Faq("b", "y")], [], [], [], []);
            var p := Toggle(InitialPage(), 1);
            var q := SetSearch(p, "a");
            && Visible(t, p)[1] == Faq("b", "y")
            && IsOpen(q, 1) && |Visible(t, q)| == 1
  {
    var t := Table([Faq("a", "x"), Faq("b", "y")], [], [], [], []);
    EmptySearchShowsAll(t.general);
    assert OccursAt(Lower("a"), Lower("a"), 0);
    NoMatchInOneChar('b', 'a');
    NoMatchInOneChar('y', 'a');
  }
}

=== FILE: fetch.dfy ===
/** The outcome of a `fetch` call, the requests a page issues and the JavaScript
    idioms the pages apply to response data. No network is modelled: each outcome
    is an input supplied by the caller of a handler. */
module Fetch {
  import opened Text

  datatype Option<+T> = None | Some(value: T) {
    /** JavaScript `x || default` on a value that is a string or undefined. */
    function GetOr(default: T): T {
      match this
      case Some(v) => v
      case None => default
    }
  }

  /** What `response.json()` produces: an object, of which the handlers only ever
      read the `error` member, or a SyntaxError carrying the engine's message. */
  datatype Json = Object(error: Option<string>) | Malformed(message: string)

  /** A response body: its raw text, whether the `content-type` header names
      `application/json`, and what parsing it as JSON gives. */
  datatype Body = Body(text: string, isJson: bool, json: Json)

  /** One awaited `fetch`: a 2xx response whose body the handler reads as `T`, a
      non-2xx response, or a rejected promise. A 2xx body that fails to parse
      inside the handler's own `try` is represented by `Thrown`. */
  datatype Outcome<+T> =
    | Ok(value: T)
    | HttpError(status: nat, statusText: string, body: Body)
    | Thrown(message: string)

  datatype Method = GET | POST | PUT | PATCH | DELETE

  /** A request as issued: method, URL, the `Authorization` header if one is
      attached, and the body. */
  datatype Request<+B> = Request(verb: Method, url: string, authorization: Option<string>, body: B)

  /** JavaScript `s || fallback` where `s` is an optional string: the empty
      string is falsy, so it too yields the fallback. */
  function OrElse(s: Option<string>, fallback: string): (r: string)
    ensures r == fallback || (s.Some? && r == s.value)
    ensures r == fallback <== s.None? || s.value == ""
    ensures s.Some? && s.value != "" ==> r == s.value
  {
    if s.Some? && s.value != "" then s.value else fallback
  }

  /** The headers of an admin write: `Authorization` only when the header
      string is non-empty (an empty one means it could not be built). */
  function AuthHeader(header: string): (r: Option<string>)
    ensures r.Some? <==> header != ""
    ensures r.Some? ==> r.value == header
  {
    if header != "" then Some(header) else None
  }

  /** The admin console's settings: the API base URL and the prepared
      `Authorization` header (empty when it could not be built). */
  datatype Config = Config(apiUrl: string, authHeader: string)

  /** The alert an admin handler raises for a non-2xx answer it reads as JSON:
      the body's `error` member, or `fallback` when that is missing or empty; a
      body that is not JSON makes `response.json()` throw its parse error. */
  function ErrorAlert(body: Body, fallback: string): (r: string)
    ensures body.json.Object? && body.json.error.Some? && body.json.error.value != "" ==> r == body.json.error.value
    ensures body.json.Object? && (body.json.error.None? || body.json.error.value == "") ==> r == fallback
    ensures body.json.Malformed? ==> r == body.json.message
  {
    match body.json
    case Object(e) => OrElse(e, fallback)
    case Malformed(m) => m
  }

  /** The message an admin handler throws after reading a non-2xx body as
      text: `${prefix}${status}${StatusTail(statusText, text)}`. */
  function StatusMessage(prefix: string, status: nat, statusText: string, text: string): (r: string)
    ensures var n := |prefix| + |NatToString(status)|;
            && |r| == n + |StatusTail(statusText, text)|
            && r[..|prefix|] == prefix
            && r[|prefix|..n] == NatToString(status)
            && r[n..] == StatusTail(statusText, text)
  {
    prefix + NatToString(status) + StatusTail(statusText, text)
  }

  /** What follows the status: ` ${statusText} - ${text}`. */
  function StatusTail(statusText: string, text: string): (t: string)
    ensures var k := 1 + |statusText|;
            && |t| == k + 3 + |text|
            && t[0] == ' ' && t[1..k] == statusText
            && t[k..k + 3] == " - " && t[k + 3..] == text
  {
    var t := " " + statusText + " - " + text;
    assert t == " " + statusText + (" - " + text);
    t
  }

  /** The status is read back from the message: two messages with the same
      prefix that are equal report the same status. */
  lemma StatusMessageStatus(prefix: string, s1: nat, t1: string, x1: string, s2: nat, t2: string, x2: string)
    ensures StatusMessage(prefix, s1, t1, x1) == StatusMessage(prefix, s2, t2, x2) ==> s1 == s2
  {
    if StatusMessage(prefix, s1, t1, x1) == StatusMessage(prefix, s2, t2, x2) {
      HeadDigitsUnique(prefix, NatToString(s1), StatusTail(t1, x1), NatToString(s2), StatusTail(t2, x2));
      NatToStringInjective(s1, s2);
    }
  }
}

=== FILE: gallery.dfy ===
/** The gallery tab of the admin console: the image list, the upload form with
    its locally held file and preview URL, and the submit and delete handlers.

    Object URLs are abstract handles. `createObjectURL` hands out the next
    unused handle and `revokeObjectURL` adds a handle to the multiset of
    revocations, so a handle revoked twice appears there twice. */
module Gallery {
  import opened Fetch
  import opened Text

  /** A gallery record as the backend returns it. */
  datatype GalleryImage = GalleryImage(
    id: string,
    title: string,
    description: Option<string>,
    imageUrl: string,
    publicId: string,
    tags: seq<string>,
    isFeatured: bool,
    order: int,
    createdAt: string,
    updatedAt: string,
    width: Option<int>,
    height: Option<int>)

  /** A file picked in the browser, known only by identity. */
  datatype File = File(id: nat)

  /** The object URLs this tab has created (`next` is the first unused handle)
      and every revocation it has made. */
  datatype Urls = Urls(next: nat, revoked: multiset<nat>)

  datatype Form = Form(
    title: string,
    description: string,
    tags: string,
    isFeatured: bool,
    order: int,
    imageFile: Option<File>,
    previewUrl: Option<nat>)

  datatype Panel = Panel(
    images: seq<GalleryImage>,
    loading: bool,
    error: Option<string>,
    editing: Option<GalleryImage>,
    showForm: bool,
    form: Form,
    urls: Urls)

  /** One entry of the multipart body. */
  datatype Part = Part(name: string, value: PartValue)
  datatype PartValue = Str(text: string) | Blob(file: File)

  datatype Payload = NoBody | Multipart(parts: seq<Part>)

  datatype Result = Result(panel: Panel, requests: seq<Request<Payload>>, alert: Option<string>)

  const FileRequiredNotice := "Image file is required for new gallery entries."

  function InitialForm(): Form {
    Form("", "", "", false, 0, None, None)
  }

  function InitialPanel(): Panel {
    Panel([], true, None, None, false, InitialForm(), Urls(0, multiset{}))
  }

  // ---------------------------------------------------------------------------
  // The preview URL

  /** `if (url) URL.revokeObjectURL(url)`. */
  function RevokeHeld(u: Urls, url: Option<nat>): (r: Urls)
    ensures r.next == u.next
    ensures url.Some? ==> r.revoked == u.revoked + multiset{url.value}
    ensures url.None? ==> r.revoked == u.revoked
  {
    match url
    case Some(h) => u.(revoked := u.revoked + multiset{h})
    case None => u
  }

  /** The form's own bookkeeping: a preview URL is held exactly when a file is,
      and it is a handle already handed out and not yet revoked. */
  ghost predicate Valid(p: Panel) {
    && (p.form.previewUrl.Some? <==> p.form.imageFile.Some?)
    && (p.form.previewUrl.Some? ==> p.form.previewUrl.value < p.urls.next && p.form.previewUrl.value !in p.urls.revoked)
    && (forall h :: h in p.urls.revoked ==> h < p.urls.next)
  }

  /** Picking a file (or clearing the picker): the held preview URL is revoked,
      and a fresh one is created exactly when a file was picked. */
  function FileChange(p: Panel, file: Option<File>): (r: Panel)
    ensures r.form.imageFile == file
    ensures r.form.previewUrl.Some? <==> file.Some?
    ensures file.Some? ==> r.form.previewUrl == Some(p.urls.next) && r.urls.next == p.urls.next + 1
    ensures file.None? ==> r.urls.next == p.urls.next
    ensures r.urls.revoked == RevokeHeld(p.urls, p.form.previewUrl).revoked
    ensures r.form.(imageFile := p.form.imageFile, previewUrl := p.form.previewUrl) == p.form
    ensures r.(form := p.form, urls := p.urls) == p
  {
    var u := RevokeHeld(p.urls, p.form.previewUrl);
    match file
    case Some(f) => p.(form := p.form.(imageFile := file, previewUrl := Some(u.next)), urls := u.(next := u.next + 1))
    case None => p.(form := p.form.(imageFile := None, previewUrl := None), urls := u)
  }

  /** Closing the form: the held preview URL is revoked and the form returns
      to its initial contents. */
  function ResetGalleryForm(p: Panel): (r: Panel)
    ensures r.form == InitialForm() && r.form.imageFile.None? && r.form.previewUrl.None?
    ensures r.editing.None? && !r.showForm
    ensures r.urls == RevokeHeld(p.urls, p.form.previewUrl)
    ensures r.images == p.images && r.error == p.error && r.loading == p.loading
  {
    p.(form := InitialForm(), editing := None, showForm := false, urls := RevokeHeld(p.urls, p.form.previewUrl))
  }

  /** "Add image": a reset that leaves the form open. */
  function AddImageClick(p: Panel): (r: Panel)
    ensures r.form == InitialForm() && r.editing.None? && r.showForm
    ensures r.urls == RevokeHeld(p.urls, p.form.previewUrl)
  {
    ResetGalleryForm(p.(editing := None)).(showForm := true)
  }

  /** The form contents for editing an existing image. */
  function FormOf(image: GalleryImage): (f: Form)
    ensures f.title == image.title && f.isFeatured == image.isFeatured && f.order == image.order
    ensures f.description == image.description.GetOr("")
    ensures f.tags == Join(image.tags, ", ")
    ensures f.imageFile.None? && f.previewUrl.None?
  {
    Form(image.title, image.description.GetOr(""), Join(image.tags, ", "), image.isFeatured, image.order, None, None)
  }

  /** Editing an image: the held preview URL is revoked and the form is filled
      from the record, without a file. */
  function EditImage(p: Panel, image: GalleryImage): (r: Panel)
    ensures r.editing == Some(image) && r.showForm
    ensures r.form == FormOf(image)
    ensures r.urls == RevokeHeld(p.urls, p.form.previewUrl)
    ensures r.images == p.images
  {
    p.(editing := Some(image), showForm := true, form := FormOf(image), urls := RevokeHeld(p.urls, p.form.previewUrl))
  }

  datatype Input = Title(t: string) | Description(d: string) | Tags(s: string) | Featured(b: bool) | Order(n: int)

  /** Typing into one of the metadata inputs changes that field only. */
  function ChangeInput(p: Panel, input: Input): (r: Panel)
    ensures r.form.imageFile == p.form.imageFile && r.form.previewUrl == p.form.previewUrl
    ensures r.(form := p.form) == p
    ensures input.Title? ==> r.form == p.form.(title := input.t)
    ensures input.Description? ==> r.form == p.form.(description := input.d)
    ensures input.Tags? ==> r.form == p.form.(tags := input.s)
    ensures input.Featured? ==> r.form == p.form.(isFeatured := input.b)
    ensures input.Order? ==> r.form == p.form.(order := input.n)
  {
    var f := p.form;
    p.(form := match input
      case Title(t) => f.(title := t)
      case Description(d) => f.(description := d)
      case Tags(s) => f.(tags := s)
      case Featured(b) => f.(isFeatured := b)
      case Order(n) => f.(order := n))
  }

  /** The effect cleanup registered on `previewUrl`: once a render commits a
      different preview URL, the previous one is revoked again. */
  function Commit(before: Panel, after: Panel): (r: Panel)
    ensures before.form.previewUrl.Some? && before.form.previewUrl != after.form.previewUrl ==>
      r.urls == RevokeHeld(after.urls, before.form.previewUrl)
    ensures before.form.previewUrl.None? || before.form.previewUrl == after.form.previewUrl ==> r == after
    ensures r.form == after.form && r.urls.next == after.urls.next
  {
    if before.form.previewUrl.Some? && before.form.previewUrl != after.form.previewUrl then
      after.(urls := RevokeHeld(after.urls, before.form.previewUrl))
    else
      after
  }

  /** The three transitions that replace the preview URL, followed by the
      commit of the render they cause. */
  datatype Event = PickFile(file: Option<File>) | Reset | Edit(image: GalleryImage) | AddClick | Type(input: Input)

  function Handle(p: Panel, e: Event): Panel {
    match e
    case PickFile(f) => FileChange(p, f)
    case Reset => ResetGalleryForm(p)
    case Edit(img) => EditImage(p, img)
    case AddClick => AddImageClick(p)
    case Type(i) => ChangeInput(p, i)
  }

  function Step(p: Panel, e: Event): Panel {
    Commit(p, Handle(p, e))
  }

  /** Every event keeps the bookkeeping sound, revokes the URL it supersedes at
      least once, and never revokes the URL the form goes on to hold. */
  lemma StepKeepsValid(p: Panel, e: Event)
    requires Valid(p)
    ensures Valid(Step(p, e))
    ensures p.form.previewUrl.Some? && Step(p, e).form.previewUrl != p.form.previewUrl ==>
      Step(p, e).urls.revoked[p.form.previewUrl.value] >= p.urls.revoked[p.form.previewUrl.value] + 1
    ensures Step(p, e).urls.revoked - p.urls.revoked <= RevokeHeld(RevokeHeld(p.urls, p.form.previewUrl), p.form.previewUrl).revoked - p.urls.revoked
  {
    var q := Handle(p, e);
    assert q.urls.revoked == p.urls.revoked || q.urls.revoked == RevokeHeld(p.urls, p.form.previewUrl).revoked;
  }

  /** The revocation is not exactly-once: replacing a held preview with a new
      file revokes the old URL in the state updater and again in the effect
      cleanup. */
  lemma SupersededPreviewRevokedTwice(p: Panel, f: File)
    requires Valid(p) && p.form.previewUrl.Some?
    ensures Step(p, PickFile(Some(f))).urls.revoked[p.form.previewUrl.value] == p.urls.revoked[p.form.previewUrl.value] + 2
  {
  }

  /** Afterwards a preview URL is held exactly when a file was just picked, and
      reset and edit leave no file. */
  lemma StepPreviewIff(p: Panel, e: Event)
    ensures e.PickFile? ==> (Step(p, e).form.previewUrl.Some? <==> e.file.Some?)
    ensures e.Reset? || e.Edit? || e.AddClick? ==> Step(p, e).form.imageFile.None? && Step(p, e).form.previewUrl.None?
  {
  }

  // ---------------------------------------------------------------------------
  // Loading the list

  function ListRequest(cfg: Config): Request<Payload> {
    Request(GET, cfg.apiUrl + "/api/gallery?limit=200", None, NoBody)
  }

  /** A 2xx response replaces the list with its `data` array (missing: empty)
      and clears the error; a failure keeps the list and records the message. */
  function LoadGallery(p: Panel, outcome: Outcome<Option<seq<GalleryImage>>>): (r: Panel)
    ensures !r.loading && r.form == p.form && r.urls == p.urls && r.editing == p.editing
    ensures outcome.Ok? ==> r.images == outcome.value.GetOr([]) && r.error.None?
    ensures !outcome.Ok? ==> r.images == p.images && r.error.Some?
    ensures outcome.HttpError? ==> r.error == Some(StatusMessage("Failed to load gallery images: ",
                                      outcome.status, outcome.statusText, outcome.body.text))
    ensures outcome.Thrown? ==> r.error == Some(outcome.message)
  {
    match outcome
    case Ok(data) => p.(images := data.GetOr([]), error := None, loading := false)
    case HttpError(st, stt, body) =>
      p.(error := Some(StatusMessage("Failed to load gallery images: ", st, stt, body.text)), loading := false)
    case Thrown(m) => p.(error := Some(m), loading := false)
  }

  // ---------------------------------------------------------------------------
  // Submit and delete

  /** `String(b)`. */
  function BoolText(b: bool): string {
    if b then "true" else "false"
  }

  /** The entries sent with every submission. */
  function MetadataParts(f: Form): seq<Part> {
    [Part("title", Str(f.title)), Part("description", Str(f.description)),
     Part("isFeatured", Str(BoolText(f.isFeatured))), Part("order", Str(IntToString(f.order)))]
  }

  /** The entries sent only when there is something to send. */
  function OptionalParts(f: Form): seq<Part> {
    (if |Trim(f.tags)| > 0 then [Part("tags", Str(f.tags))] else [])
    + (match f.imageFile case Some(file) => [Part("image", Blob(file))] case None => [])
  }

  /** The multipart body: the four metadata fields always, `tags` only when
      it is not blank, `image` only when a file is held. */
  function GalleryParts(f: Form): (parts: seq<Part>)
    ensures |parts| >= 4 && parts[..4] == MetadataParts(f)
  {
    var parts := MetadataParts(f) + OptionalParts(f);
    assert parts[..4] == MetadataParts(f);
    parts
  }

  /** What a receiver reading the multipart body sees under `name`: the first
      entry so named, if any. */
  function Lookup(parts: seq<Part>, name: string): (r: Option<PartValue>)
    ensures r.Some? <==> exists i :: 0 <= i < |parts| && parts[i].name == name
    ensures r.Some? ==> exists i :: 0 <= i < |parts| && parts[i] == Part(name, r.value)
  {
    if |parts| == 0 then None
    else if parts[0].name == name then Some(parts[0].value)
    else
      var r := Lookup(parts[1..], name);
      assert forall i :: 1 <= i < |parts| ==> parts[i] == parts[1..][i - 1];
      r
  }

  /** Looking a name up in a concatenation: the first part wins if it has the
      name, otherwise the second part answers. */
  lemma {:induction false} LookupAppend(a: seq<Part>, b: seq<Part>, name: string)
    ensures Lookup(a, name).Some? ==> Lookup(a + b, name) == Lookup(a, name)
    ensures Lookup(a, name).None? ==> Lookup(a + b, name) == Lookup(b, name)
  {
    if |a| > 0 {
      assert (a + b)[0] == a[0];
      assert (a + b)[1..] == a[1..] + b;
      LookupAppend(a[1..], b, name);
    } else {
      assert a + b == b;
    }
  }

  lemma MetadataLookup(f: Form)
    ensures Lookup(MetadataParts(f), "title") == Some(Str(f.title))
    ensures Lookup(MetadataParts(f), "description") == Some(Str(f.description))
    ensures Lookup(MetadataParts(f), "isFeatured") == Some(Str(BoolText(f.isFeatured)))
    ensures Lookup(MetadataParts(f), "order") == Some(Str(IntToString(f.order)))
    ensures Lookup(MetadataParts(f), "tags").None? && Lookup(MetadataParts(f), "image").None?
  {
    var m := MetadataParts(f);
    assert m[1..][1..][1..][1..] == [];
    assert Lookup(m, "isFeatured") == Lookup(m[1..][1..], "isFeatured");
    assert Lookup(m, "order") == Lookup(m[1..][1..], "order") == Lookup(m[1..][1..][1..], "order");
    assert Lookup(m, "tags") == Lookup(m[1..][1..], "tags") == Lookup(m[1..][1..][1..][1..], "tags");
    assert Lookup(m, "image") == Lookup(m[1..][1..], "image") == Lookup(m[1..][1..][1..][1..], "image");
  }

  /** Reading the body back: the metadata round-trips, `tags` is present
      exactly when the field holds a non-whitespace character, and `image`
      exactly when a file is held. */
  lemma PartsRoundTrip(f: Form)
    ensures Lookup(GalleryParts(f), "title") == Some(Str(f.title))
    ensures Lookup(GalleryParts(f), "description") == Some(Str(f.description))
    ensures Lookup(GalleryParts(f), "isFeatured") == Some(Str(BoolText(f.isFeatured)))
    ensures Lookup(GalleryParts(f), "order") == Some(Str(IntToString(f.order)))
    ensures Lookup(GalleryParts(f), "tags").Some? <==> exists i :: 0 <= i < |f.tags| && !IsWhitespace(f.tags[i])
    ensures Lookup(GalleryParts(f), "tags").Some? ==> Lookup(GalleryParts(f), "tags") == Some(Str(f.tags))
    ensures Lookup(GalleryParts(f), "image") == (match f.imageFile case Some(x) => Some(Blob(x)) case None => None)
  {
    TrimNonEmptyIff(f.tags);
    var m := MetadataParts(f);
    var o := OptionalParts(f);
    MetadataLookup(f);
    LookupAppend(m, o, "title");
    LookupAppend(m, o, "description");
    LookupAppend(m, o, "isFeatured");
    LookupAppend(m, o, "order");
    LookupAppend(m, o, "tags");
    LookupAppend(m, o, "image");
    var tagPart: seq<Part> := if |Trim(f.tags)| > 0 then [Part("tags", Str(f.tags))] else [];
    var imagePart: seq<Part> := match f.imageFile case Some(file) => [Part("image", Blob(file))] case None => [];
    assert o == tagPart + imagePart;
    LookupAppend(tagPart, imagePart, "tags");
    LookupAppend(tagPart, imagePart, "image");
  }

  /** PUT to the image's URL while editing, else POST to the collection. */
  function SaveRequest(cfg: Config, p: Panel): (r: Request<Payload>)
    ensures r.verb == PUT <==> p.editing.Some?
    ensures p.editing.Some? ==> r.url == cfg.apiUrl + "/api/gallery/" + p.editing.value.id
    ensures p.editing.None? ==> r.verb == POST && r.url == cfg.apiUrl + "/api/gallery"
    ensures r.body == Multipart(GalleryParts(p.form)) && r.authorization == AuthHeader(cfg.authHeader)
  {
    match p.editing
    case Some(img) => Request(PUT, cfg.apiUrl + "/api/gallery/" + img.id, AuthHeader(cfg.authHeader), Multipart(GalleryParts(p.form)))
    case None => Request(POST, cfg.apiUrl + "/api/gallery", AuthHeader(cfg.authHeader), Multipart(GalleryParts(p.form)))
  }

  /** Submitting the form. With an empty title (the one `required` input) the
      browser does not submit at all; a new entry without a file is refused
      before any request; otherwise the save, then on success a refetch and a
      reset. */
  function SubmitGallery(cfg: Config, p: Panel, save: Outcome<()>,
                         refetch: Outcome<Option<seq<GalleryImage>>>): (r: Result)
    ensures p.form.title == "" ==> r == Result(p, [], None)
    ensures p.form.title != "" && p.editing.None? && p.form.imageFile.None? ==>
      r == Result(p, [], Some(FileRequiredNotice))
    ensures |r.requests| > 0 <==> p.form.title != "" && (p.editing.Some? || p.form.imageFile.Some?)
    ensures |r.requests| > 0 ==> r.requests[0] == SaveRequest(cfg, p)
    ensures |r.requests| > 0 && save.Ok? ==>
      && r.requests == [SaveRequest(cfg, p), ListRequest(cfg)]
      && r.panel == ResetGalleryForm(LoadGallery(p, refetch)) && r.alert.None?
    ensures !save.Ok? ==> r.panel == p
    ensures |r.requests| > 0 && save.HttpError? ==> r.alert == Some(ErrorAlert(save.body, "Error saving gallery image"))
    ensures |r.requests| > 0 && save.Thrown? ==> r.alert == Some(save.message)
  {
    if p.form.title == "" then Result(p, [], None)
    else if p.editing.None? && p.form.imageFile.None? then
      Result(p, [], Some(FileRequiredNotice))
    else
      var req := SaveRequest(cfg, p);
      match save
      case Ok(_) => Result(ResetGalleryForm(LoadGallery(p, refetch)), [req, ListRequest(cfg)], None)
      case HttpError(_, _, body) => Result(p, [req], Some(ErrorAlert(body, "Error saving gallery image")))
      case Thrown(m) => Result(p, [req], Some(m))
  }

  /** Deleting an image: nothing unless confirmed; otherwise the DELETE, and on
      success a refetch. */
  function DeleteImage(cfg: Config, p: Panel, id: string, confirmed: bool,
                       del: Outcome<()>, refetch: Outcome<Option<seq<GalleryImage>>>): (r: Result)
    ensures !confirmed ==> r == Result(p, [], None)
    ensures confirmed ==>
      |r.requests| >= 1 && r.requests[0] == Request(DELETE, cfg.apiUrl + "/api/gallery/" + id, AuthHeader(cfg.authHeader), NoBody)
    ensures confirmed && del.Ok? ==>
      && r.panel == LoadGallery(p, refetch) && r.alert.None?
      && r.requests == [Request(DELETE, cfg.apiUrl + "/api/gallery/" + id, AuthHeader(cfg.authHeader), NoBody), ListRequest(cfg)]
    ensures !del.Ok? ==> r.panel == p
    ensures confirmed && del.HttpError? ==> r.alert == Some(ErrorAlert(del.body, "Error deleting gallery image"))
    ensures confirmed && del.Thrown? ==> r.alert == Some(del.message)
  {
    if !confirmed then Result(p, [], None)
    else
      var req := Request(DELETE, cfg.apiUrl + "/api/gallery/" + id, AuthHeader(cfg.authHeader), NoBody);
      match del
      case Ok(_) => Result(LoadGallery(p, refetch), [req, ListRequest(cfg)], None)
      case HttpError(_, _, body) => Result(p, [req], Some(ErrorAlert(body, "Error deleting gallery image")))
      case Thrown(m) => Result(p, [req], Some(m))
  }

  /** Leaving the console (logout, navigation) unmounts it, and the effect
      cleanup revokes the preview URL still held. */
  function Unmount(p: Panel): (r: Urls)
    ensures r.next == p.urls.next
    ensures p.form.previewUrl.Some? ==>
      r.revoked[p.form.previewUrl.value] == p.urls.revoked[p.form.previewUrl.value] + 1
    ensures forall h :: p.form.previewUrl != Some(h) ==> r.revoked[h] == p.urls.revoked[h]
  {
    RevokeHeld(p.urls, p.form.previewUrl)
  }

  /** Submitting and deleting keep the URL bookkeeping sound too, counting the
      render each one causes. A successful submit resets the form, so a held
      preview is revoked twice, as with any other reset. */
  lemma HandlersKeepValid(cfg: Config, p: Panel, save: Outcome<()>, id: string, confirmed: bool,
                          del: Outcome<()>, refetch: Outcome<Option<seq<GalleryImage>>>)
    requires Valid(p)
    ensures Valid(Commit(p, SubmitGallery(cfg, p, save, refetch).panel))
    ensures Valid(Commit(p, DeleteImage(cfg, p, id, confirmed, del, refetch).panel))
    ensures var r := SubmitGallery(cfg, p, save, refetch);
            p.form.previewUrl.Some? && |r.requests| > 0 && save.Ok? ==>
              Commit(p, r.panel).urls.revoked[p.form.previewUrl.value] == p.urls.revoked[p.form.previewUrl.value] + 2
  {
  }
}

=== FILE: services.dfy ===
/** The services tab of the admin console: the list loaded from the backend or
    the built-in fallback list, the service form with its feature list, and the
    save and delete handlers. Every handler is modelled as the state it leaves
    once its awaited requests have settled, together with the requests it
    issued and the alert it raised. */
module Services {
  import opened Fetch
  import opened Text

  datatype Service = Service(
    id: Option<string>,
    icon: string,
    title: string,
    description: string,
    features: seq<string>,
    price: string,
    duration: string,
    rating: real)

  datatype Panel = Panel(
    services: seq<Service>,
    loading: bool,
    editing: Option<Service>,
    showForm: bool,
    isUsingFallback: bool,
    form: Service)

  datatype Payload = NoBody | ServiceJson(service: Service)

  /** What a handler leaves behind. */
  datatype Result = Result(panel: Panel, requests: seq<Request<Payload>>, alert: Option<string>)

  const PreviewSaveNotice := "Cannot save changes in preview mode. Please connect to MongoDB to enable full functionality."
  const PreviewDeleteNotice := "Cannot delete services in preview mode. Please connect to MongoDB to enable full functionality."

  /** The blank draft the form starts from and returns to. */
  function DefaultDraft(): Service {
    Service(None, "Settings", "", "", [""], "", "", 4.5)
  }

  function InitialPanel(): Panel {
    Panel([], true, None, false, false, DefaultDraft())
  }

  // ---------------------------------------------------------------------------
  // The feature list of the form

  /** `features.map((f, j) => j === index ? value : f)`. */
  function ReplaceAt(fs: seq<string>, index: int, value: string): (r: seq<string>)
    ensures |r| == |fs|
    ensures forall j :: 0 <= j < |fs| ==> r[j] == (if j == index then value else fs[j])
    decreases |fs|
  {
    if |fs| == 0 then []
    else [if index == 0 then value else fs[0]] + ReplaceAt(fs[1..], index - 1, value)
  }

  /** `features.filter((_, j) => j !== index)`. */
  function RemoveAt(fs: seq<string>, index: int): (r: seq<string>)
    ensures 0 <= index < |fs| ==> r == fs[..index] + fs[index + 1..]
    ensures !(0 <= index < |fs|) ==> r == fs
    decreases |fs|
  {
    if |fs| == 0 then []
    else (if index == 0 then [] else [fs[0]]) + RemoveAt(fs[1..], index - 1)
  }

  function AddFeature(form: Service): (r: Service)
    ensures |r.features| == |form.features| + 1
    ensures r.features[..|form.features|] == form.features && r.features[|form.features|] == ""
    ensures r.(features := form.features) == form
  {
    form.(features := form.features + [""])
  }

  function UpdateFeature(form: Service, index: int, value: string): (r: Service)
    ensures |r.features| == |form.features|
    ensures 0 <= index < |form.features| ==> r.features[index] == value
    ensures forall j :: 0 <= j < |form.features| && j != index ==> r.features[j] == form.features[j]
    ensures r.(features := form.features) == form
  {
    form.(features := ReplaceAt(form.features, index, value))
  }

  function RemoveFeature(form: Service, index: int): (r: Service)
    ensures 0 <= index < |form.features| ==>
      |r.features| == |form.features| - 1 && r.features == form.features[..index] + form.features[index + 1..]
    ensures !(0 <= index < |form.features|) ==> r.features == form.features
    ensures r.(features := form.features) == form
  {
    form.(features := RemoveAt(form.features, index))
  }

  /** The form shows a remove button beside each feature only while there is
      more than one. */
  predicate RemoveOffered(form: Service) {
    |form.features| > 1
  }

  /** Removing the entry that was just added gives back the form. */
  lemma RemoveUndoesAdd(form: Service)
    ensures RemoveFeature(AddFeature(form), |form.features|) == form
  {
    var fs := form.features;
    assert (fs + [""])[..|fs|] == fs;
  }

  /** Writing an entry's own value back changes nothing. */
  lemma UpdateWithSameValue(form: Service, index: int)
    requires 0 <= index < |form.features|
    ensures UpdateFeature(form, index, form.features[index]) == form
  {
    assert UpdateFeature(form, index, form.features[index]).features == form.features;
  }

  /** Through the buttons the form offers, the feature list never becomes
      empty: adding, editing and an offered removal keep at least one entry. */
  lemma FeatureEditsKeepOne(form: Service, index: int, value: string)
    requires |form.features| >= 1
    ensures |AddFeature(form).features| >= 1
    ensures |UpdateFeature(form, index, value).features| >= 1
    ensures RemoveOffered(form) ==> |RemoveFeature(form, index).features| >= 1
  {
  }

  // ---------------------------------------------------------------------------
  // Form open, edit and reset

  function ResetServiceForm(p: Panel): (r: Panel)
    ensures r.form.icon == "Settings" && r.form.features == [""] && r.form.rating == 4.5
    ensures r.form.id.None? && r.form.title == "" && r.form.description == ""
    ensures r.form.price == "" && r.form.duration == ""
    ensures r.editing.None? && !r.showForm
    ensures r.services == p.services && r.isUsingFallback == p.isUsingFallback && r.loading == p.loading
  {
    p.(form := DefaultDraft(), editing := None, showForm := false)
  }

  /** Reset yields the very draft the console starts with. */
  lemma ResetRestoresInitialDraft(p: Panel)
    ensures ResetServiceForm(p).form == InitialPanel().form
    ensures ResetServiceForm(ResetServiceForm(p)) == ResetServiceForm(p)
  {
  }

  function OpenServiceForm(p: Panel): (r: Panel)
    ensures r.showForm && r.(showForm := p.showForm) == p
  {
    p.(showForm := true)
  }

  /** Editing copies the service into the draft and remembers which record it is. */
  function EditService(p: Panel, s: Service): (r: Panel)
    ensures r.form == s && r.editing == Some(s) && r.showForm
    ensures r.services == p.services && r.isUsingFallback == p.isUsingFallback
  {
    p.(editing := Some(s), form := s, showForm := true)
  }

  // ---------------------------------------------------------------------------
  // Loading the list

  function ListRequest(cfg: Config): Request<Payload> {
    Request(GET, cfg.apiUrl + "/api/services", None, NoBody)
  }

  /** A 2xx response replaces the list and leaves preview mode; a non-2xx
      response or a failure installs the built-in list and enters it. */
  function LoadServices(p: Panel, outcome: Outcome<seq<Service>>): (r: Panel)
    ensures outcome.Ok? ==> r.services == outcome.value && !r.isUsingFallback
    ensures !outcome.Ok? ==> r.services == FallbackServices() && r.isUsingFallback
    ensures !r.loading
    ensures r.form == p.form && r.editing == p.editing && r.showForm == p.showForm
  {
    match outcome
    case Ok(list) => p.(services := list, isUsingFallback := false, loading := false)
    case _ => p.(services := FallbackServices(), isUsingFallback := true, loading := false)
  }

  // ---------------------------------------------------------------------------
  // Save and delete

  /** `${id}` in a template string: a missing id renders as `undefined`. */
  function IdText(id: Option<string>): string {
    match id
    case Some(s) => s
    case None => "undefined"
  }

  /** The save request: PUT to the record's URL while editing, else POST to the collection. */
  function SaveRequest(cfg: Config, p: Panel): (r: Request<Payload>)
    ensures r.verb == PUT <==> p.editing.Some?
    ensures r.verb == POST <==> p.editing.None?
    ensures p.editing.Some? ==> r.url == cfg.apiUrl + "/api/services/" + IdText(p.editing.value.id)
    ensures p.editing.None? ==> r.url == cfg.apiUrl + "/api/services"
    ensures r.body == ServiceJson(p.form) && r.authorization == AuthHeader(cfg.authHeader)
  {
    match p.editing
    case Some(s) => Request(PUT, cfg.apiUrl + "/api/services/" + IdText(s.id), AuthHeader(cfg.authHeader), ServiceJson(p.form))
    case None => Request(POST, cfg.apiUrl + "/api/services", AuthHeader(cfg.authHeader), ServiceJson(p.form))
  }

  /** The save request and what follows it: on success a refetch and a reset;
      on failure the panel as it was and an alert. */
  function Save(cfg: Config, p: Panel, save: Outcome<()>, refetch: Outcome<seq<Service>>): (r: Result)
    ensures |r.requests| >= 1 && r.requests[0] == SaveRequest(cfg, p)
    ensures save.Ok? ==>
      && r.requests == [SaveRequest(cfg, p), ListRequest(cfg)]
      && r.panel == ResetServiceForm(LoadServices(p, refetch))
      && r.alert.None?
    ensures !save.Ok? ==> r.panel == p && r.requests == [SaveRequest(cfg, p)] && r.alert.Some?
    ensures save.HttpError? ==> r.alert == Some(ErrorAlert(save.body, "Error saving service"))
    ensures save.Thrown? ==> r.alert == Some(save.message)
  {
    var req := SaveRequest(cfg, p);
    match save
    case Ok(_) => Result(ResetServiceForm(LoadServices(p, refetch)), [req, ListRequest(cfg)], None)
    case HttpError(_, _, body) => Result(p, [req], Some(ErrorAlert(body, "Error saving service")))
    case Thrown(m) => Result(p, [req], Some(m))
  }

  /** The browser's own check of the inputs marked `required`: title, price,
      duration, description and every feature must be non-empty, or the form
      does not submit at all. */
  predicate Complete(form: Service) {
    && form.title != "" && form.price != "" && form.duration != "" && form.description != ""
    && forall j :: 0 <= j < |form.features| ==> form.features[j] != ""
  }

  /** Submitting the form: nothing at all while a required input is empty;
      refused in preview mode before any request; otherwise the save. A failed
      save leaves the draft and the edited record as they were. */
  function SubmitService(cfg: Config, p: Panel, save: Outcome<()>, refetch: Outcome<seq<Service>>): (r: Result)
    ensures !Complete(p.form) ==> r == Result(p, [], None)
    ensures Complete(p.form) && p.isUsingFallback ==> r.requests == [] && r.panel == p && r.alert == Some(PreviewSaveNotice)
    ensures Complete(p.form) && !p.isUsingFallback ==> r == Save(cfg, p, save, refetch)
  {
    if !Complete(p.form) then Result(p, [], None)
    else if p.isUsingFallback then Result(p, [], Some(PreviewSaveNotice))
    else Save(cfg, p, save, refetch)
  }

  /** The blank draft the form opens with cannot be submitted: its title and
      its one feature are empty. */
  lemma BlankDraftSendsNothing(cfg: Config, p: Panel, save: Outcome<()>, refetch: Outcome<seq<Service>>)
    ensures SubmitService(cfg, ResetServiceForm(p), save, refetch) == Result(ResetServiceForm(p), [], None)
  {
  }

  /** A save that succeeds while the refetch fails drops into preview mode with
      the built-in list; a successful refetch shows the backend's list. */
  lemma SaveThenRefetch(cfg: Config, p: Panel, refetch: Outcome<seq<Service>>)
    ensures var r := Save(cfg, p, Ok(()), refetch).panel;
            && (!refetch.Ok? ==> r.isUsingFallback && r.services == FallbackServices())
            && (refetch.Ok? ==> !r.isUsingFallback && r.services == refetch.value)
            && r.form == DefaultDraft() && r.editing.None? && !r.showForm
  {
  }

  function DeleteRequest(cfg: Config, id: string): Request<Payload> {
    Request(DELETE, cfg.apiUrl + "/api/services/" + id, AuthHeader(cfg.authHeader), NoBody)
  }

  /** Deleting a service: nothing without an id; refused in preview mode; nothing
      unless confirmed; otherwise the DELETE, and on success a refetch. */
  function DeleteService(cfg: Config, p: Panel, id: Option<string>, confirmed: bool,
                         del: Outcome<()>, refetch: Outcome<seq<Service>>): (r: Result)
    ensures id.None? || id.value == "" ==> r == Result(p, [], None)
    ensures p.isUsingFallback ==> r.requests == [] && r.panel == p
    ensures p.isUsingFallback && id.Some? && id.value != "" ==> r.alert == Some(PreviewDeleteNotice)
    ensures !confirmed ==> r.requests == [] && r.panel == p
    ensures !confirmed && !p.isUsingFallback ==> r.alert.None?
    ensures |r.requests| > 0 <==> id.Some? && id.value != "" && !p.isUsingFallback && confirmed
    ensures |r.requests| > 0 ==> r.requests[0] == DeleteRequest(cfg, id.value)
    ensures !del.Ok? ==> r.panel == p
    ensures |r.requests| > 0 && del.Ok? ==>
      r.requests == [DeleteRequest(cfg, id.value), ListRequest(cfg)] && r.panel == LoadServices(p, refetch) && r.alert.None?
    ensures |r.requests| > 0 && del.HttpError? ==> r.alert == Some(ErrorAlert(del.body, "Error deleting service"))
    ensures |r.requests| > 0 && del.Thrown? ==> r.alert == Some(del.message)
  {
    if id.None? || id.value == "" then Result(p, [], None)
    else if p.isUsingFallback then Result(p, [], Some(PreviewDeleteNotice))
    else if !confirmed then Result(p, [], None)
    else
      var req := DeleteRequest(cfg, id.value);
      match del
      case Ok(_) => Result(LoadServices(p, refetch), [req, ListRequest(cfg)], None)
      case HttpError(_, _, body) => Result(p, [req], Some(ErrorAlert(body, "Error deleting service")))
      case Thrown(m) => Result(p, [req], Some(m))
  }

  /** Once a list fetch has failed, neither save nor delete issues a request,
      whatever the user does and whatever the backend would answer. */
  lemma FailedLoadBlocksMutations(cfg: Config, p: Panel, load: Outcome<seq<Service>>,
                                  save: Outcome<()>, id: Option<string>, confirmed: bool,
                                  answer: Outcome<()>, refetch: Outcome<seq<Service>>)
    requires !load.Ok?
    ensures SubmitService(cfg, LoadServices(p, load), save, refetch).requests == []
    ensures DeleteService(cfg, LoadServices(p, load), id, confirmed, answer, refetch).requests == []
    ensures SubmitService(cfg, LoadServices(p, load), save, refetch).panel.services == FallbackServices()
  {
  }

  /** A successful list fetch lifts preview mode, so a save of a complete form
      goes out again. */
  lemma SuccessfulLoadEnablesSave(cfg: Config, p: Panel, list: seq<Service>,
                                  save: Outcome<()>, refetch: Outcome<seq<Service>>)
    requires Complete(p.form)
    ensures SubmitService(cfg, LoadServices(p, Ok(list)), save, refetch).requests[0].verb in {PUT, POST}
  {
  }

  // ---------------------------------------------------------------------------
  // The built-in list shown when the backend is unreachable

  /** The twelve built-in services, in the order the source lists them, with
      ids "1" to "12". */
  function FallbackServices(): (r: seq<Service>)
    ensures |r| == 12
    ensures forall i :: 0 <= i < 12 ==> r[i] == FallbackEntry(i)
  {
    seq(12, i requires 0 <= i < 12 => FallbackEntry(i))
  }

  /** Entry `i` of the built-in list. */
  function FallbackEntry(i: nat): (s: Service)
    requires i < 12
    ensures s.id.Some? && |s.features| == 4
    ensures 0.0 <= s.rating <= 5.0
  {
    match i
    case 0 => Service(Some("1"), "Settings", "Engine Repair",
      "Complete engine diagnostics, repair, and maintenance services",
      ["Engine diagnostics", "Oil change", "Tune-up", "Performance optimization"],
      "From ₹2,000", "2-4 hours", 4.8)
    case 1 => Service(Some("2"), "Car", "AC Service",
      "Air conditioning system repair and maintenance",
      ["AC gas refill", "Filter replacement", "Compressor repair", "Temperature control"],
      "From ₹1,500", "1-2 hours", 4.9)
    case 2 => Service(Some("3"), "Wrench", "Brake Service",
      "Complete brake system inspection and repair",
      ["Brake pad replacement", "Brake fluid change", "Disc/drum service", "ABS repair"],
      "From ₹1,200", "2-3 hours", 4.7)
    case 3 => Service(Some("4"), "Battery", "Battery Service",
      "Battery testing, maintenance, and replacement",
      ["Battery testing", "Terminal cleaning", "Battery replacement", "Charging system check"],
      "From ₹800", "30 minutes", 4.9)
    case 4 => Service(Some("5"), "Car", "Tyre Service",
      "Complete tyre care and replacement services",
      ["Tyre rotation", "Balancing & alignment", "Puncture repair", "Tyre replacement"],
      "From ₹500", "1 hour", 4.8)
    case 5 => Service(Some("6"), "Gauge", "Transmission Service",
      "Manual and automatic transmission repair",
      ["Transmission fluid change", "Clutch repair", "Gear box service", "CVT maintenance"],
      "From ₹3,000", "4-6 hours", 4.6)
    case 6 => Service(Some("7"), "Zap", "Electrical Service",
      "Electrical system diagnostics and repair",
      ["Wiring inspection", "Light replacement", "Starter/alternator service", "ECU diagnostics"],
      "From ₹1,000", "1-3 hours", 4.7)
    case 7 => Service(Some("8"), "Shield", "Suspension Service",
      "Suspension system repair and maintenance",
      ["Shock absorber replacement", "Spring service", "Strut repair", "Steering alignment"],
      "From ₹2,500", "3-5 hours", 4.8)
    case 8 => Service(Some("9"), "PaintBucket", "Paint & Body",
      "Complete paint job and body repair services",
      ["Dent removal", "Paint touch-up", "Full body paint", "Scratch repair"],
      "From ₹5,000", "1-3 days", 4.5)
    case 9 => Service(Some("10"), "Car", "Interior Cleaning",
      "Deep cleaning and detailing services",
      ["Seat cleaning", "Dashboard polish", "Carpet wash", "Odor removal"],
      "From ₹1,500", "2-3 hours", 4.8)
    case 10 => Service(Some("11"), "CheckCircle", "General Checkup",
      "Comprehensive vehicle health inspection",
      ["Multi-point inspection", "Diagnostic scan", "Safety check", "Performance report"],
      "From ₹500", "1 hour", 4.9)
    case _ => Service(Some("12"), "Settings", "Periodic Maintenance",
      "Scheduled maintenance as per manufacturer guidelines",
      ["Service reminder", "Warranty maintenance", "Genuine parts", "Service history"],
      "From ₹2,000", "2-4 hours", 4.8)
  }
}

=== FILE: text.dfy ===
/** String operations the pages rely on, with the JavaScript semantics they have
    in the source: `\s` and `trim()` whitespace, `includes`, `toLowerCase` (ASCII
    letters only), `join`, `slice`, and the decimal rendering of a number in a
    template string. */
module Text {

  /** ECMAScript WhiteSpace and LineTerminator code points: the set matched by
      `\s` and removed by `String.prototype.trim`. */
  predicate IsWhitespace(c: char) {
    || c == '\t' || c == '\n' || c == '\U{B}' || c == '\U{C}' || c == '\r' || c == ' '
    || c == '\U{A0}' || c == '\U{1680}' || ('\U{2000}' <= c <= '\U{200A}')
    || c == '\U{2028}' || c == '\U{2029}' || c == '\U{202F}' || c == '\U{205F}'
    || c == '\U{3000}' || c == '\U{FEFF}'
  }

  predicate NoWhitespace(s: string) {
    forall i :: 0 <= i < |s| ==> !IsWhitespace(s[i])
  }

  /** `[0-9]`: ASCII digits only. */
  predicate IsDigit(c: char) {
    '0' <= c <= '9'
  }

  predicate AllDigits(s: string) {
    forall i :: 0 <= i < |s| ==> IsDigit(s[i])
  }

  // ---------------------------------------------------------------------------
  // Case folding

  function LowerChar(c: char): (r: char)
    ensures 'A' <= c <= 'Z' ==> r as int == c as int + 32
    ensures !('A' <= c <= 'Z') ==> r == c
    ensures !('A' <= r <= 'Z')
  {
    if 'A' <= c <= 'Z' then (c as int + 32) as char else c
  }

  /** `toLowerCase`, restricted to ASCII letters. */
  function Lower(s: string): (r: string)
    ensures |r| == |s|
    ensures forall i :: 0 <= i < |s| ==> r[i] == LowerChar(s[i])
  {
    seq(|s|, i requires 0 <= i < |s| => LowerChar(s[i]))
  }

  lemma LowerIdempotent(s: string)
    ensures Lower(Lower(s)) == Lower(s)
  {
  }

  // ---------------------------------------------------------------------------
  // Substring search

  /** `needle` occurs in `hay` starting at position `i`. */
  predicate OccursAt(hay: string, needle: string, i: int) {
    0 <= i && i + |needle| <= |hay| && hay[i..i + |needle|] == needle
  }

  /** `hay.includes(needle)`: true for the empty needle. */
  function Contains(hay: string, needle: string): (r: bool)
    ensures r <==> exists i :: OccursAt(hay, needle, i)
    decreases |hay|
  {
    if needle <= hay then
      assert OccursAt(hay, needle, 0);
      true
    else if |hay| == 0 then
      false
    else
      var tail := hay[1..];
      var r := Contains(tail, needle);
      if r then
        var i :| OccursAt(tail, needle, i);
        assert tail[i..i + |needle|] == hay[i + 1..i + 1 + |needle|];
        assert OccursAt(hay, needle, i + 1);
        true
      else
        assert forall i :: OccursAt(hay, needle, i) ==> i > 0 && OccursAt(tail, needle, i - 1) by {
          forall i | OccursAt(hay, needle, i)
            ensures i > 0 && OccursAt(tail, needle, i - 1)
          {
            assert tail[i - 1..i - 1 + |needle|] == hay[i..i + |needle|];
          }
        }
        false
  }

  // ---------------------------------------------------------------------------
  // Trimming

  function TrimStart(s: string): (r: string)
    ensures |r| <= |s| && r == s[|s| - |r|..]
    ensures forall i :: 0 <= i < |s| - |r| ==> IsWhitespace(s[i])
    ensures |r| > 0 ==> !IsWhitespace(r[0])
  {
    if |s| > 0 && IsWhitespace(s[0]) then TrimStart(s[1..]) else s
  }

  function TrimEnd(s: string): (r: string)
    ensures |r| <= |s| && r == s[..|r|]
    ensures forall i :: |r| <= i < |s| ==> IsWhitespace(s[i])
    ensures |r| > 0 ==> !IsWhitespace(r[|r| - 1])
  {
    if |s| > 0 && IsWhitespace(s[|s| - 1]) then TrimEnd(s[..|s| - 1]) else s
  }

  /** `String.prototype.trim`. */
  function Trim(s: string): string {
    TrimEnd(TrimStart(s))
  }

  /** `s.trim().length > 0` holds exactly when `s` has a non-whitespace character. */
  lemma TrimNonEmptyIff(s: string)
    ensures |Trim(s)| > 0 <==> exists i :: 0 <= i < |s| && !IsWhitespace(s[i])
  {
    var t := TrimStart(s);
    var u := TrimEnd(t);
    if |u| > 0 {
      assert u[0] == t[0] == s[|s| - |t|];
      assert !IsWhitespace(s[|s| - |t|]);
    } else {
      assert |t| == 0;
    }
  }

  // ---------------------------------------------------------------------------
  // Joining

  /** `xs.join(sep)`. */
  function Join(xs: seq<string>, sep: string): (r: string)
    ensures |xs| == 0 ==> r == ""
    ensures |xs| == 1 ==> r == xs[0]
  {
    if |xs| == 0 then ""
    else if |xs| == 1 then xs[0]
    else xs[0] + sep + Join(xs[1..], sep)
  }

  /** Joining a concatenation puts one separator between the two joined
      halves; with the one-element case this fixes `join` on every list. */
  lemma {:induction false} JoinAppend(xs: seq<string>, ys: seq<string>, sep: string)
    requires |xs| > 0 && |ys| > 0
    ensures Join(xs + ys, sep) == Join(xs, sep) + sep + Join(ys, sep)
    decreases |xs|
  {
    var zs := xs + ys;
    assert zs[0] == xs[0];
    if |xs| == 1 {
      assert zs[1..] == ys;
    } else {
      assert zs[1..] == xs[1..] + ys;
      JoinAppend(xs[1..], ys, sep);
    }
  }

  // ---------------------------------------------------------------------------
  // Decimal numerals

  function DigitChar(d: nat): (c: char)
    requires d < 10
    ensures IsDigit(c)
  {
    ('0' as int + d) as char
  }

  function DigitValue(c: char): (d: nat)
    requires IsDigit(c)
    ensures d < 10
  {
    c as int - '0' as int
  }

  /** The decimal text of a non-negative integer, as a template string renders it. */
  function NatToString(n: nat): (s: string)
    ensures |s| > 0 && AllDigits(s)
    ensures n > 0 ==> s[0] != '0'
  {
    if n < 10 then [DigitChar(n)] else NatToString(n / 10) + [DigitChar(n % 10)]
  }

  /** The value of a string of decimal digits. */
  function ParseDigits(s: string): nat
    requires AllDigits(s)
  {
    if |s| == 0 then 0 else 10 * ParseDigits(s[..|s| - 1]) + DigitValue(s[|s| - 1])
  }

  /** Reading back a rendered number gives the number. */
  lemma {:induction false} ParseNatToString(n: nat)
    ensures ParseDigits(NatToString(n)) == n
  {
    var s := NatToString(n);
    if n >= 10 {
      ParseNatToString(n / 10);
      assert s[..|s| - 1] == NatToString(n / 10);
    }
  }

  lemma NatToStringInjective(m: nat, n: nat)
    ensures NatToString(m) == NatToString(n) ==> m == n
  {
    if NatToString(m) == NatToString(n) {
      ParseNatToString(m);
      ParseNatToString(n);
    }
  }

  /** A run of digits ends where the first non-digit begins, so it can be read
      off the front of a text. */
  lemma DigitRunUnique(a: string, s: string, b: string, t: string)
    requires AllDigits(a) && AllDigits(b)
    requires |s| > 0 && |t| > 0 && !IsDigit(s[0]) && !IsDigit(t[0])
    requires a + s == b + t
    ensures a == b && s == t
  {
    assert (a + s)[|a|] == s[0] && (b + t)[|b|] == t[0];
    assert a == (a + s)[..|a|] && b == (b + t)[..|b|];
    assert s == (a + s)[|a|..] && t == (b + t)[|b|..];
  }

  /** The same text read after the same head: the digits and what follows
      them agree. */
  lemma HeadDigitsUnique(head: string, a: string, s: string, b: string, t: string)
    requires AllDigits(a) && AllDigits(b)
    requires |s| > 0 && |t| > 0 && !IsDigit(s[0]) && !IsDigit(t[0])
    requires head + a + s == head + b + t
    ensures a == b && s == t
  {
    assert (head + a + s)[|head|..] == a + s;
    assert (head + b + t)[|head|..] == b + t;
    DigitRunUnique(a, s, b, t);
  }

  /** `String(n)` for an integer value. */
  function IntToString(i: int): (s: string)
    ensures |s| > 0
    ensures i >= 0 <==> IsDigit(s[0])
    ensures i >= 0 ==> s == NatToString(i)
    ensures i < 0 ==> s == "-" + NatToString(-i)
  {
    if i < 0 then "-" + NatToString(-i) else NatToString(i)
  }

  /** Reading an integer back: an optional leading minus, then digits. */
  function ParseInt(s: string): int
    requires |s| > 0
    requires AllDigits(s) || (s[0] == '-' && AllDigits(s[1..]))
  {
    if AllDigits(s) then ParseDigits(s) else -(ParseDigits(s[1..]) as int)
  }

  /** The rendering of an integer reads back as that integer. */
  lemma ParseIntToString(i: int)
    ensures var s := IntToString(i);
            (AllDigits(s) || (s[0] == '-' && AllDigits(s[1..]))) && ParseInt(s) == i
  {
    if i < 0 {
      var s := IntToString(i);
      assert !AllDigits(s) by { assert !IsDigit(s[0]); }
      assert s[1..] == NatToString(-i);
      ParseNatToString(-i);
    } else {
      ParseNatToString(i);
    }
  }

  /** Distinct integers render differently. */
  lemma IntToStringInjective(i: int, j: int)
    ensures IntToString(i) == IntToString(j) ==> i == j
  {
    ParseIntToString(i);
    ParseIntToString(j);
  }
}

=== FILE: validation.dfy ===
/** The field rules the booking wizard and the contact form register with the
    form library: `required` with a message, and `pattern` with a message. A
    required rule fails on an absent value, the empty string or an empty
    checkbox selection; a pattern applies only to a non-empty string. */
module Validation {
  import opened Fetch
  import opened Text

  /** A form field's current value: a text input, select or radio value, or the
      list of ticked boxes of a checkbox group. */
  datatype Value = Str(text: string) | Choices(items: seq<string>)

  /** The value counts as missing for a `required` rule. */
  predicate IsEmpty(v: Option<Value>) {
    match v
    case None => true
    case Some(Str(t)) => t == ""
    case Some(Choices(xs)) => |xs| == 0
  }

  /** The two regular expressions the pages use: `^[0-9]{n}$`, and `^\S+@\S+$`
      (its `i` flag is irrelevant, the pattern has no letters). */
  datatype Pattern = Digits(count: nat) | EmailAddress

  datatype PatternRule = PatternRule(pattern: Pattern, message: string)

  datatype Rule = Rule(required: Option<string>, pattern: Option<PatternRule>)

  /** What `^\S+@\S+$` accepts: the string splits at some `@` into a non-empty,
      whitespace-free part on each side. */
  ghost predicate EmailShape(s: string) {
    exists k :: 0 < k < |s| - 1 && s[k] == '@' && NoWhitespace(s[..k]) && NoWhitespace(s[k + 1..])
  }

  lemma EmailShapeChars(s: string)
    ensures EmailShape(s) <==> NoWhitespace(s) && exists k :: 0 < k < |s| - 1 && s[k] == '@'
  {
    if EmailShape(s) {
      var k :| 0 < k < |s| - 1 && s[k] == '@' && NoWhitespace(s[..k]) && NoWhitespace(s[k + 1..]);
      forall i | 0 <= i < |s| ensures !IsWhitespace(s[i]) {
        if i < k {
          assert s[i] == s[..k][i];
        } else if i > k {
          assert s[i] == s[k + 1..][i - k - 1];
        }
      }
    }
  }

  /** An executable test for `^\S+@\S+$`. */
  function MatchesEmail(s: string): (r: bool)
    ensures r <==> EmailShape(s)
  {
    EmailShapeChars(s);
    NoWhitespace(s) && exists k :: 0 < k < |s| - 1 && s[k] == '@'
  }

  function Matches(p: Pattern, s: string): (r: bool)
    ensures p.Digits? ==> (r <==> |s| == p.count && AllDigits(s))
    ensures p.EmailAddress? ==> (r <==> EmailShape(s))
  {
    match p
    case Digits(n) => |s| == n && AllDigits(s)
    case EmailAddress => MatchesEmail(s)
  }

  /** The error the form library reports for one field, if any: the required
      message first, then the pattern message. */
  function Check(rule: Rule, v: Option<Value>): (r: Option<string>)
    ensures r.None? <==>
      && (rule.required.Some? ==> !IsEmpty(v))
      && (rule.pattern.Some? && !IsEmpty(v) && v.value.Str? ==> Matches(rule.pattern.value.pattern, v.value.text))
    ensures r.Some? && rule.required.Some? && IsEmpty(v) ==> r.value == rule.required.value
    ensures r.Some? && !IsEmpty(v) ==> rule.pattern.Some? && r.value == rule.pattern.value.message
  {
    if rule.required.Some? && IsEmpty(v) then
      Some(rule.required.value)
    else if rule.pattern.Some? && !IsEmpty(v) && v.value.Str? && !Matches(rule.pattern.value.pattern, v.value.text) then
      Some(rule.pattern.value.message)
    else
      None
  }

  // ---------------------------------------------------------------------------
  // The rules both pages register for a phone number and an email address

  const PhoneRequired := "Phone number is required"
  const PhoneInvalid := "Please enter a valid 10-digit phone number"
  const EmailInvalid := "Please enter a valid email address"

  const PhoneRule := Rule(Some(PhoneRequired), Some(PatternRule(Digits(10), PhoneInvalid)))

  /** A phone number passes exactly when it is ten ASCII digits. */
  lemma PhoneRuleIff(s: string)
    ensures Check(PhoneRule, Some(Str(s))) == None <==> |s| == 10 && AllDigits(s)
    ensures s == "" ==> Check(PhoneRule, Some(Str(s))) == Some(PhoneRequired)
    ensures s != "" && !(|s| == 10 && AllDigits(s)) ==> Check(PhoneRule, Some(Str(s))) == Some(PhoneInvalid)
  {
  }

  lemma PhoneExamples()
    ensures Check(PhoneRule, Some(Str("9876543210"))) == None
    ensures Check(PhoneRule, Some(Str("98765"))) == Some(PhoneInvalid)
    ensures Check(PhoneRule, Some(Str("98765432100"))) == Some(PhoneInvalid)
    ensures Check(PhoneRule, Some(Str("98765 4321"))) == Some(PhoneInvalid)
    ensures Check(PhoneRule, None) == Some(PhoneRequired)
  {
    assert !IsDigit("98765 4321"[5]);
  }

  /** Examples of the email pattern: one `@` with something either side, no
      whitespace anywhere; a second `@` is allowed. */
  lemma EmailExamples()
    ensures MatchesEmail("a@b")
    ensures MatchesEmail("a@@b")
    ensures !MatchesEmail("@b")
    ensures !MatchesEmail("a@")
    ensures !MatchesEmail("a b@c")
    ensures !MatchesEmail("ab")
  {
    assert "a@b"[1] == '@';
    assert "a@@b"[1] == '@';
    assert IsWhitespace("a b@c"[1]);
  }
}

=== FILE: wizard.dfy ===
/** The five-step booking wizard: car details, issues, customer details,
    schedule, confirmation. Each "Continue" validates the fields shown on the
    current step, merges the form's values into the accumulated data and moves
    on; on the last step it posts the accumulated data instead. */
module Wizard {
  import opened Fetch
  import opened Text
  import opened Validation

  datatype Field =
    | Brand | Model | Fuel | Year | RegistrationNumber
    | Services | Description
    | Name | Phone | Email | Address | City | Pincode
    | Date | Time | ServiceType

  /** Form values by field name; a field never filled in is absent. */
  type Data = map<Field, Value>

  const TotalSteps := 5

  datatype State = State(step: int, formData: Data)

  function Initial(): State {
    State(1, map[])
  }

  predicate InRange(s: State) {
    1 <= s.step <= TotalSteps
  }

  // ---------------------------------------------------------------------------
  // Stepping

  function NextStep(step: int): (r: int)
    ensures step < TotalSteps ==> r == step + 1
    ensures step >= TotalSteps ==> r == step
  {
    if step < TotalSteps then step + 1 else step
  }

  function PrevStep(step: int): (r: int)
    ensures step > 1 ==> r == step - 1
    ensures step <= 1 ==> r == step
  {
    if step > 1 then step - 1 else step
  }

  /** The "Previous" button is disabled on the first step. */
  predicate PrevDisabled(step: int) {
    step == 1
  }

  /** Both moves keep the step within 1..5, and away from the ends each undoes
      the other. */
  lemma StepMoves(step: int)
    requires 1 <= step <= TotalSteps
    ensures 1 <= NextStep(step) <= TotalSteps && 1 <= PrevStep(step) <= TotalSteps
    ensures step < TotalSteps ==> PrevStep(NextStep(step)) == step
    ensures step > 1 ==> NextStep(PrevStep(step)) == step
    ensures PrevDisabled(step) <==> PrevStep(step) == step
  {
  }

  // ---------------------------------------------------------------------------
  // Accumulating data

  /** `{ ...old, ...new }`: every key of either, the new value winning. */
  function Merge(before: Data, update: Data): (r: Data)
    ensures r.Keys == before.Keys + update.Keys
    ensures forall f :: f in update ==> r[f] == update[f]
    ensures forall f :: f in before && f !in update ==> r[f] == before[f]
  {
    before + update
  }

  /** Merging is associative with the empty map as unit, and merging the same
      data again changes nothing. */
  lemma MergeLaws(a: Data, b: Data, c: Data)
    ensures Merge(Merge(a, b), c) == Merge(a, Merge(b, c))
    ensures Merge(a, map[]) == a && Merge(map[], a) == a
    ensures Merge(Merge(a, b), b) == Merge(a, b)
  {
  }

  // ---------------------------------------------------------------------------
  // Validation

  function Lookup(values: Data, f: Field): Option<Value> {
    if f in values then Some(values[f]) else None
  }

  function Required(message: string): Rule {
    Rule(Some(message), None)
  }

  const PincodeRequired := "Pincode is required"
  const PincodeInvalid := "Please enter a valid 6-digit pincode"

  /** The rule each field registers. */
  function RuleOf(f: Field): Rule {
    match f
    case Brand => Required("Brand is required")
    case Model => Required("Model is required")
    case Fuel => Required("Fuel type is required")
    case Year => Required("Year is required")
    case RegistrationNumber => Required("Registration number is required")
    case Services => Required("At least one service must be selected")
    case Description => Rule(None, None)
    case Name => Required("Name is required")
    case Phone => PhoneRule
    case Email => Rule(None, Some(PatternRule(EmailAddress, EmailInvalid)))
    case Address => Required("Address is required")
    case City => Required("City is required")
    case Pincode => Rule(Some(PincodeRequired), Some(PatternRule(Digits(6), PincodeInvalid)))
    case Date => Required("Date is required")
    case Time => Required("Time is required")
    case ServiceType => Required("Service type is required")
  }

  /** The fields rendered, and so validated, on each step. */
  function StepFields(step: int): set<Field> {
    if step == 1 then {Brand, Model, Fuel, Year, RegistrationNumber}
    else if step == 2 then {Services, Description}
    else if step == 3 then {Name, Phone, Email, Address, City, Pincode}
    else if step == 4 then {Date, Time, ServiceType}
    else {}
  }

  /** The error message of every field of the current step that fails its rule. */
  function StepErrors(step: int, values: Data): (r: map<Field, string>)
    ensures forall f :: f in r <==> f in StepFields(step) && Check(RuleOf(f), Lookup(values, f)).Some?
    ensures forall f :: f in r ==> r[f] == Check(RuleOf(f), Lookup(values, f)).value
  {
    map f | f in StepFields(step) && Check(RuleOf(f), Lookup(values, f)).Some? :: Check(RuleOf(f), Lookup(values, f)).value
  }

  predicate Filled(values: Data, f: Field) {
    !IsEmpty(Lookup(values, f))
  }

  predicate TextMatches(values: Data, f: Field, p: Pattern) {
    f in values && values[f].Str? && Matches(p, values[f].text)
  }

  /** Step 1 passes exactly when brand, model, fuel, year and registration
      number are all filled in. */
  lemma Step1Gate(values: Data)
    ensures StepErrors(1, values) == map[] <==>
      Filled(values, Brand) && Filled(values, Model) && Filled(values, Fuel) &&
      Filled(values, Year) && Filled(values, RegistrationNumber)
  {
    if StepErrors(1, values) == map[] {
      assert Brand !in StepErrors(1, values);
      assert Model !in StepErrors(1, values);
      assert Fuel !in StepErrors(1, values);
      assert Year !in StepErrors(1, values);
      assert RegistrationNumber !in StepErrors(1, values);
    }
  }

  /** Step 2 passes exactly when at least one service is selected; the
      description is optional. */
  lemma Step2Gate(values: Data)
    ensures StepErrors(2, values) == map[] <==> Filled(values, Services)
  {
    if StepErrors(2, values) == map[] {
      assert Services !in StepErrors(2, values);
    }
  }

  /** A phone or pincode text that is filled in passes its rule exactly when
      it has the required number of digits. */
  lemma DigitsRule(r: Rule, v: Option<Value>, n: nat)
    requires r.required.Some? && r.pattern.Some? && r.pattern.value.pattern == Digits(n)
    ensures Check(r, v).None? <==> !IsEmpty(v) && (v.value.Str? ==> |v.value.text| == n && AllDigits(v.value.text))
  {
  }

  /** Step 3 passes exactly when name, address and city are filled in, the
      phone is ten digits, the pincode six digits, and the email is either
      left empty or of the form `x@y` without whitespace. */
  lemma Step3Gate(values: Data)
    requires forall f :: f in values && f in {Phone, Email, Pincode} ==> values[f].Str?
    ensures StepErrors(3, values) == map[] <==>
      && Filled(values, Name) && Filled(values, Address) && Filled(values, City)
      && TextMatches(values, Phone, Digits(10))
      && TextMatches(values, Pincode, Digits(6))
      && (Filled(values, Email) ==> TextMatches(values, Email, EmailAddress))
  {
    DigitsRule(RuleOf(Phone), Lookup(values, Phone), 10);
    DigitsRule(RuleOf(Pincode), Lookup(values, Pincode), 6);
    if StepErrors(3, values) == map[] {
      assert Name !in StepErrors(3, values);
      assert Phone !in StepErrors(3, values);
      assert Email !in StepErrors(3, values);
      assert Address !in StepErrors(3, values);
      assert City !in StepErrors(3, values);
      assert Pincode !in StepErrors(3, values);
    }
  }

  /** Step 4 passes exactly when date, time and service type are filled in. */
  lemma Step4Gate(values: Data)
    ensures StepErrors(4, values) == map[] <==>
      Filled(values, Date) && Filled(values, Time) && Filled(values, ServiceType)
  {
    if StepErrors(4, values) == map[] {
      assert Date !in StepErrors(4, values);
      assert Time !in StepErrors(4, values);
      assert ServiceType !in StepErrors(4, values);
    }
  }

  /** The confirmation step shows no inputs, so nothing can block it. */
  lemma Step5Gate(values: Data)
    ensures StepErrors(TotalSteps, values) == map[]
  {
  }

  // ---------------------------------------------------------------------------
  // Submitting

  const BookingsUrl := "http://localhost:5000/api/bookings"
  const BookingSuccess := "Booking submitted successfully! We will contact you soon."
  const BookingFailedPrefix := "Failed to submit booking: "
  const BookingErrorPrefix := "Error submitting booking: "

  /** JavaScript string concatenation renders a missing member as `undefined`. */
  function UndefinedText(s: Option<string>): (r: string)
    ensures s.Some? ==> r == s.value
    ensures s.None? ==> r == "undefined"
  {
    s.GetOr("undefined")
  }

  /** The alert after the POST: the body is parsed as JSON before the status is
      looked at, so a body that is not JSON is reported as an error whatever
      the status. */
  function BookingAlert(outcome: Outcome<Json>): (r: string)
    ensures outcome.Ok? && outcome.value.Object? ==> r == BookingSuccess
    ensures outcome.HttpError? && outcome.body.json.Object? ==>
      r == BookingFailedPrefix + UndefinedText(outcome.body.json.error)
    ensures outcome.Ok? && outcome.value.Malformed? ==> r == BookingErrorPrefix + outcome.value.message
    ensures outcome.HttpError? && outcome.body.json.Malformed? ==> r == BookingErrorPrefix + outcome.body.json.message
    ensures outcome.Thrown? ==> r == BookingErrorPrefix + outcome.message
  {
    match outcome
    case Ok(Object(_)) => BookingSuccess
    case Ok(Malformed(m)) => BookingErrorPrefix + m
    case HttpError(_, _, body) =>
      (match body.json
       case Object(e) => BookingFailedPrefix + UndefinedText(e)
       case Malformed(m) => BookingErrorPrefix + m)
    case Thrown(m) => BookingErrorPrefix + m
  }

  datatype SubmitResult = SubmitResult(
    state: State,
    errors: map<Field, string>,
    request: Option<Request<Data>>,
    alert: Option<string>)

  /** Pressing "Continue" / "Submit Booking" with the form's current values; on
      the last step `outcome` is what the POST gives. */
  function Submit(s: State, values: Data, outcome: Outcome<Json>): (r: SubmitResult)
    ensures r.errors == StepErrors(s.step, values)
    ensures r.errors != map[] ==> r.state == s && r.request.None? && r.alert.None?
    ensures r.errors == map[] ==> r.state.formData == Merge(s.formData, values)
    ensures r.errors == map[] && s.step != TotalSteps ==>
      r.state.step == NextStep(s.step) && r.request.None? && r.alert.None?
    ensures r.errors == map[] && s.step == TotalSteps ==>
      && r.state.step == TotalSteps
      && r.request == Some(Request(POST, BookingsUrl, None, Merge(s.formData, values)))
      && r.alert == Some(BookingAlert(outcome))
  {
    var errors := StepErrors(s.step, values);
    if errors != map[] then SubmitResult(s, errors, None, None)
    else
      var merged := Merge(s.formData, values);
      if s.step == TotalSteps then
        SubmitResult(State(s.step, merged), errors, Some(Request(POST, BookingsUrl, None, merged)), Some(BookingAlert(outcome)))
      else
        SubmitResult(State(NextStep(s.step), merged), errors, None, None)
  }

  /** A POST goes out exactly on the last step, and then carries everything
      accumulated so far merged with the current values. */
  lemma PostOnlyOnLastStep(s: State, values: Data, outcome: Outcome<Json>)
    ensures Submit(s, values, outcome).request.Some? <==> s.step == TotalSteps
    ensures Submit(s, values, outcome).request.Some? ==>
      Submit(s, values, outcome).request.value.body == Merge(s.formData, values)
  {
    Step5Gate(values);
  }

  // ---------------------------------------------------------------------------
  // Runs of button presses

  datatype Event = Continue(values: Data, outcome: Outcome<Json>) | Previous

  function Apply(s: State, e: Event): (r: State)
    ensures InRange(s) ==> -1 <= r.step - s.step <= 1
    ensures s.formData.Keys <= r.formData.Keys
  {
    match e
    case Continue(values, outcome) => Submit(s, values, outcome).state
    case Previous => s.(step := PrevStep(s.step))
  }

  function Run(s: State, es: seq<Event>): State
    decreases |es|
  {
    if es == [] then s else Run(Apply(s, es[0]), es[1..])
  }

  /** However the buttons are pressed, the wizard stays on one of its five steps. */
  lemma {:induction false} RunStaysInRange(s: State, es: seq<Event>)
    requires InRange(s)
    ensures InRange(Run(s, es))
    decreases |es|
  {
    if es != [] {
      var t := Apply(s, es[0]);
      assert InRange(t) by {
        match es[0]
        case Continue(values, outcome) => StepMoves(s.step);
        case Previous => StepMoves(s.step);
      }
      RunStaysInRange(t, es[1..]);
    }
  }

  /** Accumulated data is never dropped: a field once merged stays present. */
  lemma {:induction false} RunKeepsFields(s: State, es: seq<Event>)
    ensures s.formData.Keys <= Run(s, es).formData.Keys
    decreases |es|
  {
    if es != [] {
      RunKeepsFields(Apply(s, es[0]), es[1..]);
    }
  }

  // ---------------------------------------------------------------------------
  // The confirmation summary

  /** The service-type line of the summary. */
  function ServiceTypeLabel(v: Option<Value>): (r: string)
    ensures r == "Pickup & Drop" <==> v == Some(Str("pickup"))
    ensures r == "Workshop Visit" <==> v != Some(Str("pickup"))
  {
    if v == Some(Str("pickup")) then "Pickup & Drop" else "Workshop Visit"
  }
}
